=== FILE: README.md ===
# A verified model of a CPU cache simulator

This project models the functional engine of a small C cache simulator. The
simulator puts a cache with 64-byte blocks between a processor and a 64 KiB
byte-addressable memory. It classifies each word access as a hit or a miss,
installs missing words from memory, and keeps a least-recently-used recency
queue for each set. The model is written in Dafny and its properties are
proved.

The model is functional. The heap blocks, the global recency structure and the
memory buffer become immutable values: `BlockStore.Cache`, `Lru.Lru` and a
`seq<Byte>`. Each C procedure that mutates them becomes a pure function. That
function returns the new state, or an `Error` where the C program calls `exit`
or would go on with undefined behaviour.

Modules, leaves first:

- `Config`: the compile-time constants (word, cache, block and memory sizes, associativity, memory cap, the empty marker -1).
- `Bits`: `extractInt` as the bit loop it is (`ShiftRight`, `LowBits`), proved equal to `(a / 2^r) % 2^l`. It also holds the division and power-of-two facts the rest needs.
- `Address`: the address check (as written and corrected) and the tag, index and offset fields. It proves that the three fields reassemble to the address.
- `Codec`: `int_to_endian`, `endian_to_int` and the initial memory image. It proves both round trips.
- `Lru`: the recency queue (`newQueue`, `addTagQueue`) and the per-set queues (`newLRU`, `getEvictedTagLRU`).
- `BlockStore`: blocks, the cache record, its construction, the cache size check and the field width computations.
- `Controller`: `check_cache`, `pass_word_to_cache`, `read_word` and `write_word`.
- `CacheProperties`: lemmas about whole accesses.

The field widths are parameters of `NewCache`. `BlockStore.InitializeCache`
builds the cache as the program does, with the square-root widths of
main.c:156-157 (`BlockStore.SqrtWidths`). `BlockStore.InitializeCacheLog2` is
the corrected constructor with base-2 logarithm widths (see Findings).

Addresses are checked as the program checks them: `Controller.ReadWord` uses
the check of main.c:193 as written, which lets the address equal to the memory
size through. `Controller.ReadWordChecked` is the corrected read (see
Findings).

Behaviour the model keeps although it looks unintended:

- A full queue that is touched again for a resident tag reports that tag itself as evicted, not "nothing evicted" (main.c:98).
- A recency queue holds `CACHE_BLOCK_SIZE * ASSOCIATIVITY` slots, not `ASSOCIATIVITY` (main.c:110).
- The block or set is chosen by `address % numBlocks` or `address % numSets`, not by the decoded index (main.c:292, 304, 321, 336, 431, 454).
- The hit test compares tags only and never reads `valid` (main.c:296, 312).
- A set-associative miss refreshes the recency queue twice (main.c:308, 341). The second refresh finds the tag already resident, so the install is never told a least recently used tag: it reports either nothing or the missing tag itself. A miss therefore either fills the first block of the set with a zero word at the offset or finds no victim (`Lru.SecondTouchReport`, `CacheProperties.MissInstallsIntoZeroWord`).
- Write-back does nothing at all (main.c:479-481).
- The read check accepts address 65536, whose word lies past the memory (main.c:193). A hit there succeeds; a miss would copy past the buffer, and the model stops with `WordPastMemory`.
- The offset and index widths are square roots, not logarithms (main.c:156-157).

## Model

| member | source | states |
|---|---|---|
| Bits.ExtractInt | main.c:180-190 | the bit loop gives `(address / 2^rightOffset) % 2^length`, a value below `2^length` |
| Bits.ShiftRightIsDiv | main.c:183 | shifting an unsigned value right by `n` is division by `2^n` |
| Bits.LowBitsIsMod | main.c:184-188 | adding bit `i` with weight `2^i` for `i < n` gives the value modulo `2^n` |
| Bits.FieldsReassemble | main.c:199-212 | three adjacent bit fields of a value below `2^(lo+mid+hi)`, put back in place, give the value |
| Address.ValidateAddressAsWritten | main.c:192-197 | passes exactly the word-aligned addresses `<= MEMORY_SIZE`; otherwise aborts with `InvalidAddress` |
| Address.AsWrittenAcceptsWordPastMemory | main.c:192-197 | some address passes the as-written check although its word ends past the memory |
| Address.ValidateAddress | main.c:192-197 | corrected check: passes exactly when the address is word-aligned and its whole word lies in memory |
| Address.Tag | main.c:199-202 | the tag is the field above index and offset, below `2^tag_length` |
| Address.Index | main.c:204-207 | the index is the field above the offset, below `2^index_length` |
| Address.BlockOffset | main.c:209-212 | the offset is the low field, below `2^block_offset_length` |
| Address.DecodeReassembles | main.c:158 | when the widths sum to 32, `tag * 2^(i+o) + index * 2^o + offset` is the address |
| Address.DecodeInjective | main.c:158 | when the widths sum to 32, two addresses with equal tag, index and offset are equal |
| Codec.ReverseGather | main.c:218-234 | gathering `n` bits lowest first with `<< 1` and then reversing them gives the low `n` bits of the value, below what the accumulator held |
| Codec.EndianByte | main.c:216-238 | the gather-then-reverse pass over bits `8k .. 8k+7` gives the `k`-th byte field of the value |
| Codec.IntToEndian | main.c:214-242 | byte `k` of the encoding of `0 <= x < 2^31` is `(x / 256^k) % 256` (little-endian) |
| Codec.ByteBits | main.c:253-257 | reading a byte's eight bits one at a time gives its unsigned value |
| Codec.EndianToInt | main.c:244-260 | the decoded value is `b0 + 256*b1 + 65536*b2 + 16777216*b3`, with each byte unsigned, below `2^32` |
| Codec.DecodeEncode | main.c:214-260 | decoding the encoding of any `0 <= x < 2^31` gives `x` |
| Codec.EncodeDecode | main.c:214-260 | encoding the decoded value of four bytes with the top bit clear gives the same bytes |
| Codec.InitializeMemory | main.c:275-288 | the image has `MEMORY_SIZE` bytes, and each byte is its byte of the encoding of its word-aligned base address |
| Codec.InitialWordIsAddress | main.c:275-288 | in the initial image the word at every aligned `i < MEMORY_SIZE` decodes to `i` |
| Lru.NewQueue | main.c:56-66 | a new queue has `maxSize` slots, holds no tag and is well formed |
| Lru.IndexOf | main.c:75-82 | the search finds the first slot holding the tag, or reports the queue length when the tag is absent |
| Lru.Slot | main.c:72-82 | the vacated slot is the tag's first slot, or the front slot when the tag is absent |
| Lru.RemoveAt | main.c:84-88 | closing the gap keeps the entries before the slot and moves every later one a place forward |
| Lru.AddTag | main.c:68-90 | the queue keeps its length, and it is the old queue without the vacated slot, in order, with the tag appended |
| Lru.TouchReport | main.c:92-98 | the report is -1 while the front slot is unused, the tag itself when it was already resident, and otherwise the old front |
| Lru.TouchKeepsWellFormed | main.c:68-90 | an access by a real tag keeps empty slots at the front and real tags distinct |
| Lru.TouchResidents | main.c:68-98 | the tag joins the resident set, and the old front leaves it exactly when the queue was full and the tag was absent |
| Lru.SecondTouchReport | main.c:68-98 | touching a well-formed queue twice with the same tag makes the second report -1 while the front slot is still unused and the tag itself otherwise, never another tag |
| Lru.TouchKeepsFull | main.c:68-90 | a full queue stays full |
| Lru.NewLru | main.c:106-120 | `numQueues` queues, each of `queueSize` empty slots, well formed |
| Lru.GetEvictedTag | main.c:122-128 | aborts with `InvalidAddress` exactly when the set exceeds the queue capacity; otherwise only that set's queue changes, as `AddTag` changes it |
| BlockStore.NewBlock | main.c:132-144 | a new block has no tag (-1), is clean and marked valid, and has `blockSize` zero bytes |
| BlockStore.NewCache | main.c:146-167 | `size / blockSize` fresh blocks, the given offset and index widths, and a tag width that fills the 32-bit word |
| BlockStore.ValidateCacheSize | main.c:262-266 | passes exactly when the size exceeds neither `MEMORY_CAP` nor `MEMORY_SIZE`; otherwise aborts with `CacheTooLarge` |
| BlockStore.FloorSqrt | main.c:156-157 | `(int) pow(n, 0.5)` is the largest `r` with `r*r <= n` |
| BlockStore.SqrtWidths | main.c:156-157 | each width is the largest `r` whose square does not exceed the block size or the number of sets |
| BlockStore.Log2Widths | main.c:156-157 | corrected widths: each is the largest `r` with `2^r` not exceeding the block size or the number of sets |
| BlockStore.SqrtWidthsOverrunBlock | main.c:156-158 | with the compiled constants the cache gets widths 22/2/8, and address 17536 gets offset 128, past the 64-byte block |
| BlockStore.Log2OffsetFits | main.c:156-157 | with base-2 logarithm widths and a power-of-two block, every aligned word lies inside its block |
| BlockStore.Log2BlockFits | main.c:156-157 | with the logarithmic offset width and a power-of-two block of at least one word, every aligned address's word lies inside its block |
| BlockStore.InitializeCache | main.c:268-271 | aborts with `CacheTooLarge` exactly when the size check fails; otherwise `size / blockSize` fresh blocks with the given geometry and policy, and square-root widths that fill the word |
| BlockStore.InitializeCacheLog2 | main.c:268-271 | corrected constructor: the same size check, the same fresh blocks, geometry and write policy as the constructor as written, logarithmic widths, and for a power-of-two block every aligned word fits inside its block |
| Controller.CheckCache | main.c:290-317 | hit exactly when the selected block, or some block of the set, carries the tag; the direct-mapped path leaves the queues alone; the set-associative path refreshes only the set's queue, keeps it well formed, and aborts exactly when the set exceeds the queue capacity |
| Controller.Splice | main.c:329-331 | the word replaces exactly the four bytes at the offset, and every other byte keeps its value |
| Controller.Fill | main.c:326-331 | the installed block carries the new tag, is valid and clean, and holds the word at the offset |
| Controller.LastWithTag | main.c:342-351 | finds nothing exactly when no block of the range carries the tag; otherwise the last block that does |
| Controller.FirstZero | main.c:352-371 | finds nothing exactly when no block of the range has a zero word at the offset; otherwise the first block that does |
| Controller.Victim | main.c:340-371 | the victim lies in the set; with a reported eviction, none exists exactly when no block of the set carries the evicted tag, and otherwise it is the last block that does; with nothing reported, none exists exactly when no block of the set has a zero word at the offset, and otherwise it is the first block that does |
| Controller.Install | main.c:319-380 | direct-mapped installs always succeed on the remainder block; set-associative installs refresh the queue and fail exactly when no victim is found; on success the tag is where the next lookup looks, and at most one block, inside the address's set, changes |
| Controller.Resolve | main.c:385-388 | after a lookup and an install on a miss, the tag is resident and at most one block of the set changed; a hit changes no block; memory is untouched; a miss on a word that ends past memory stops with `WordPastMemory`, and a miss on a word that ends past its block stops with `BlockOverrun`; on a direct-mapped cache it fails exactly when it misses on such a word, and leaves the recency queues alone |
| Controller.ReadWord | main.c:382-421 | an unaligned address or one above `MEMORY_SIZE` aborts with `InvalidAddress`; a passing address is looked up as `Controller.Resolve` does, for every offset; address `MEMORY_SIZE` passes, and on a direct-mapped cache succeeds exactly when it hits |
| Controller.ReadWordChecked | main.c:382-388 | corrected read: only addresses whose word lies in memory pass, no read copies past the memory, and on a direct-mapped cache a passing read succeeds exactly when it hits or its word fits its block |
| Controller.ReadWordVariants | main.c:193 | the read as written and the corrected read agree on every address but `MEMORY_SIZE`, which only the read as written looks up |
| Controller.WriteWord | main.c:424-482 | write-back leaves the state as it is; write-through fails exactly when the lookup-and-install fails or the word ends past memory or past its block, and otherwise puts the word in memory and in the remainder block, changes no other memory byte, changes no block but the remainder block and at most one install target, leaves the tag resident, and leaves the recency queues as the lookup-and-install left them |
| Controller.StoreAfterResolve | main.c:430-433 | the store after a successful lookup-and-install completes every promise of a write-through |
| Controller.Store | main.c:430-433 | the word is written to memory and to the remainder block at the offset; the block keeps its tag, flags and other bytes, and every other block and memory byte stays |
| Controller.SameTagsSameHolds | main.c:296 | lookups depend only on tags: changing block bytes never turns a hit into a miss |
| CacheProperties.InstallDirectMapped | main.c:319-333 | a direct-mapped install sets tag, valid and clean on block `address % numBlocks`, copies exactly the four memory bytes, changes nothing else, and the following lookup hits |
| CacheProperties.ReadAgainHits | main.c:382-421 | repeating a successful read hits and changes no block |
| CacheProperties.WriteThenReadHits | main.c:424-456 | after a write-through the memory word equals the written word, and a read of the address hits |
| CacheProperties.AccessTouchCount | main.c:304-341 | a set-associative hit refreshes the set's queue once, and a miss refreshes it twice |
| CacheProperties.FullQueueMissHasNoVictim | main.c:336-371 | once a set's queue is full, every miss in that set finds no victim block |
| CacheProperties.FreshCacheMisses | main.c:132-144 | a cache of fresh blocks misses on every address |
| CacheProperties.RemainderAndTagDecideHit | main.c:290-300 | after a direct-mapped read of `a`, a read of any `b` with the same remainder and tag hits |
| CacheProperties.AliasedLinesOfProgramCache | main.c:304-313 | in the cache the program builds (two blocks per set, widths 22/2/8), addresses 0 and 256 fall in the same set and carry the same tag although their index fields differ |
| CacheProperties.MissInstallsIntoZeroWord | main.c:304-371 | a successful set-associative miss gets no report from its second queue refresh and fills the first block of the set with a zero word at the offset, changing no other block |
| CacheProperties.InitialStateValid | main.c:485-490 | the state a run starts from (the built cache, one fresh queue per set, a full-size memory) satisfies every invariant the accesses keep |

## Left out

- Reporting: every `printf` (main.c:194, 390-471) is left out, including the "Write-back" label printed on write-through hits.
- Memory management: `malloc` and the pointer plumbing are replaced by immutable values. The global `lru` (main.c:130) is passed explicitly.
- Process exit: `exit(CACHE_TOO_LARGE_ERROR)` and `exit(INVALID_MEMORY_ADDRESS)` become `Failure` results.
- Floating point: `pow` in `extractInt` and `endian_to_int` is replaced by integer arithmetic. `(int) pow(x, 0.5)` is modelled as the integer square root.
- The returned `Word` of `read_word` is never set (main.c:384), so `ReadWord` returns only the state and the hit/miss classification.
- `newWord` (main.c:169-178) is never called by the engine.
- The simulation driver: the fixed access sequence of `run_simulation` and `main` (main.c:491-509) is left out; only the state it starts from is modelled (`CacheProperties.InitialStateValid`).
- Codec.IntToEndian: negative inputs are not modelled, because the bit loop does not give their two's-complement bytes. Bytes are the unsigned view of C `char`, because `endian_to_int` reads them unsigned.
- Codec.EndianToInt: returns the unsigned value. The C conversion of values of `2^31` or more into `int` is not modelled.
- Bits.ExtractInt: works on unbounded naturals. The `int` overflow of `pow(2, 31)` for a 32-bit-wide field is not modelled, because the widths in use never reach it.
- Controller.Install: on the set-associative path, when no victim block exists the C code writes through an uninitialised pointer. The model returns `Failure(NoVictim)` instead.
- Controller.Install: the victim scan indexes with the compile-time `ASSOCIATIVITY` (main.c:344, 354). The model uses the cache's `associativity`, which `newCache` always sets to that constant.
- Controller.Install requires `offset + 4 <= blockSize`; its callers `Controller.Resolve` and `Controller.WriteWord` check that bound first and return `Failure(BlockOverrun)` where the C code would read or write past the block buffer, which the square-root widths make happen (see Findings).
- Controller.WriteWord: `write_word` never validates its address. A write-through whose word ends past the memory writes past the buffer; the model returns `Failure(WordPastMemory)` instead.
- Controller.Resolve: a miss on address 65536 copies past the memory buffer; the model returns `Failure(WordPastMemory)` instead.
- Controller.Valid: requires at most 128 sets, because `check_cache` keeps the set number in a `char` (main.c:304).
- Lru.GetEvictedTag: requires an existing set, because the C code reads `queues[set]` before its own bounds check (main.c:124).

## Findings

| source | as written | input that shows it | evidently intended | confidence | as-written member | corrected member |
|---|---|---|---|---|---|---|
| main.c:193 | rejects only `address > MEMORY_SIZE` | address 65536 passes, and a read miss then copies bytes 65536..65539 past the memory | reject `address >= MEMORY_SIZE` | high; not executed | Address.AsWrittenAcceptsWordPastMemory | Controller.ReadWordChecked |
| main.c:156-157 | widths are `pow(x, 0.5)`: 8 offset bits and 2 index bits | address 17536 has offset 128; with two blocks per set the install scans `byte_array[128..131]` of a 64-byte buffer (main.c:359) and writes there (main.c:377) | widths are base-2 logarithms: 6 offset bits and 3 index bits | high; not executed | BlockStore.SqrtWidthsOverrunBlock | BlockStore.InitializeCacheLog2 |

=== FILE: address.dfy ===
/** Address validation and the split of a 32-bit address into tag, set index
    and block offset. */
module Address {
  import opened Config
  import opened Bits
  import opened Results

  /** An `unsigned int` address. */
  type Addr = a: nat | a < 0x1_0000_0000

  /** Bit widths of the three address fields, least significant field last. */
  datatype Widths = Widths(tagLength: nat, indexLength: nat, offsetLength: nat)

  /** The three widths cover the 32-bit word exactly. */
  predicate SplitsWord(w: Widths)
  {
    w.tagLength + w.indexLength + w.offsetLength == WORD_SIZE_BITS
  }

  /** The address check of the reads, as written: an aligned address equal to
      the memory size is let through, although the word it names lies past the
      end of memory. */
  function ValidateAddressAsWritten(address: Addr): (o: Outcome)
    ensures o.Pass? <==> address % WORD_SIZE_BYTES == 0 && address <= MEMORY_SIZE
    ensures o.Fail? ==> o.error == InvalidAddress
  {
    if address % WORD_SIZE_BYTES != 0 || address > MEMORY_SIZE then Fail(InvalidAddress) else Pass
  }

  /** The as-written check accepts an address whose word does not fit in memory. */
  lemma AsWrittenAcceptsWordPastMemory()
    ensures exists a: Addr :: ValidateAddressAsWritten(a).Pass? && a + WORD_SIZE_BYTES > MEMORY_SIZE
  {
    var a: Addr := MEMORY_SIZE;
    assert ValidateAddressAsWritten(a).Pass?;
  }

  /** The address check with the bound the memory actually has: an address
      passes exactly when it is word-aligned and its whole word lies in memory. */
  function ValidateAddress(address: Addr): (o: Outcome)
    ensures o.Pass? <==> address % WORD_SIZE_BYTES == 0 && address + WORD_SIZE_BYTES <= MEMORY_SIZE
    ensures o.Fail? ==> o.error == InvalidAddress
  {
    if address % WORD_SIZE_BYTES != 0 || address >= MEMORY_SIZE then Fail(InvalidAddress) else Pass
  }

  function Tag(w: Widths, address: Addr): (t: nat)
    ensures t < Pow2(w.tagLength)
  {
    ExtractInt(address, w.indexLength + w.offsetLength, w.tagLength)
  }

  function Index(w: Widths, address: Addr): (i: nat)
    ensures i < Pow2(w.indexLength)
  {
    ExtractInt(address, w.offsetLength, w.indexLength)
  }

  function BlockOffset(w: Widths, address: Addr): (o: nat)
    ensures o < Pow2(w.offsetLength)
  {
    ExtractInt(address, 0, w.offsetLength)
  }

  /** When the widths cover the word, tag, index and offset put back in their
      bit positions give the address again. */
  lemma DecodeReassembles(w: Widths, address: Addr)
    requires SplitsWord(w)
    ensures Tag(w, address) * Pow2(w.indexLength + w.offsetLength)
              + Index(w, address) * Pow2(w.offsetLength) + BlockOffset(w, address) == address
  {
    Pow2Word();
    assert w.offsetLength + w.indexLength + w.tagLength == WORD_SIZE_BITS;
    FieldsReassemble(address, w.offsetLength, w.indexLength, w.tagLength);
  }

  /** Two addresses with the same three fields are the same address. */
  lemma DecodeInjective(w: Widths, a: Addr, b: Addr)
    requires SplitsWord(w)
    requires Tag(w, a) == Tag(w, b) && Index(w, a) == Index(w, b)
    requires BlockOffset(w, a) == BlockOffset(w, b)
    ensures a == b
  {
    DecodeReassembles(w, a);
    DecodeReassembles(w, b);
  }
}

=== FILE: bits.dfy ===
/** Unsigned shift-and-mask arithmetic on unbounded naturals: the
    `extractInt` bit loop of the simulator and the division facts it rests on. */
module Bits {

  function Pow2(n: nat): (r: nat)
    ensures r >= 1
  {
    if n == 0 then 1 else 2 * Pow2(n - 1)
  }

  lemma {:induction false} Pow2Add(m: nat, n: nat)
    ensures Pow2(m + n) == Pow2(m) * Pow2(n)
  {
    if m > 0 {
      Pow2Add(m - 1, n);
      assert Pow2(m + n) == 2 * Pow2(m - 1 + n);
    }
  }

  /** The powers of two that name the byte and word boundaries of a 32-bit word. */
  lemma Pow2Word()
    ensures Pow2(8) == 256
    ensures Pow2(16) == 65536
    ensures Pow2(24) == 16777216
    ensures Pow2(32) == 0x1_0000_0000
  {
    assert Pow2(2) == 4;
    assert Pow2(4) == 16;
    assert Pow2(6) == 64;
    assert Pow2(8) == 256;
    Pow2Add(8, 8);
    Pow2Add(16, 8);
    Pow2Add(16, 16);
  }

  lemma DivModUnique(a: int, d: int, q: int, r: int)
    requires d > 0 && 0 <= r < d && a == d * q + r
    ensures a / d == q && a % d == r
  {
    var q' := a / d;
    assert a == d * q' + a % d;
    if q' > q {
      MulStep(d, q, q');
      assert false;
    } else if q' < q {
      MulStep(d, q', q);
      assert false;
    }
  }

  lemma MulStep(d: int, x: int, y: int)
    requires d > 0 && x < y
    ensures d * x + d <= d * y
  {
    var k := y - x - 1;
    assert k >= 0;
    assert d * y == d * x + d * k + d;
    assert d * k >= 0;
  }

  lemma Distribute(d: int, x: int, y: int)
    ensures d * (x + y) == d * x + d * y
  {
  }

  lemma Associate(d: int, p: int, q: int)
    ensures d * (p * q) == (d * p) * q
  {
  }

  /** Dividing by `d * p` is dividing by `d` and then by `p`, and the remainder
      splits into the low remainder plus `d` times the next digit. */
  lemma DivModNested(a: nat, d: nat, p: nat)
    requires d > 0 && p > 0
    ensures a / (d * p) == (a / d) / p
    ensures a % (d * p) == a % d + d * ((a / d) % p)
  {
    var q, r := a / d, a % d;
    var q2, r2 := q / p, q % p;
    assert a == d * q + r;
    assert q == p * q2 + r2;
    Distribute(d, p * q2, r2);
    Associate(d, p, q2);
    assert a == (d * p) * q2 + (d * r2 + r);
    MulStep(d, r2, p);
    DivModUnique(a, d * p, q2, d * r2 + r);
  }

  /** `a >> n` on an unsigned value. */
  function ShiftRight(a: nat, n: nat): nat
  {
    if n == 0 then a else ShiftRight(a / 2, n - 1)
  }

  /** The accumulation loop of `extractInt`: bit `i` of `a`, read by repeated
      `% 2` and `>> 1`, is added with weight `2^i`, for `i` below `n`. */
  function LowBits(a: nat, n: nat): nat
  {
    if n == 0 then 0 else a % 2 + 2 * LowBits(a / 2, n - 1)
  }

  lemma {:induction false} ShiftRightIsDiv(a: nat, n: nat)
    ensures ShiftRight(a, n) == a / Pow2(n)
  {
    if n > 0 {
      ShiftRightIsDiv(a / 2, n - 1);
      DivModNested(a, 2, Pow2(n - 1));
    }
  }

  lemma {:induction false} LowBitsIsMod(a: nat, n: nat)
    ensures LowBits(a, n) == a % Pow2(n)
  {
    if n > 0 {
      LowBitsIsMod(a / 2, n - 1);
      DivModNested(a, 2, Pow2(n - 1));
    }
  }

  /** A value that fits in `n` bits is its own `n` low bits. */
  lemma LowBitsOfSmall(a: nat, n: nat)
    requires a < Pow2(n)
    ensures LowBits(a, n) == a
  {
    LowBitsIsMod(a, n);
  }

  /** The `length` bits of `address` that start `rightOffset` bits above the
      least significant one. */
  function ExtractInt(address: nat, rightOffset: nat, length: nat): (v: nat)
    ensures v == (address / Pow2(rightOffset)) % Pow2(length)
    ensures v < Pow2(length)
  {
    ShiftRightIsDiv(address, rightOffset);
    LowBitsIsMod(ShiftRight(address, rightOffset), length);
    LowBits(ShiftRight(address, rightOffset), length)
  }

  /** Three adjacent fields of a value below `2^(lo + mid + hi)` put back
      together give the value. */
  lemma FieldsReassemble(a: nat, lo: nat, mid: nat, hi: nat)
    requires a < Pow2(lo + mid + hi)
    ensures ExtractInt(a, mid + lo, hi) * Pow2(mid + lo) + ExtractInt(a, lo, mid) * Pow2(lo)
              + ExtractInt(a, 0, lo) == a
  {
    Pow2Add(lo, mid);
    Pow2Add(lo + mid, hi);
    assert mid + lo == lo + mid;
    TopBelow(a, Pow2(lo) * Pow2(mid), Pow2(hi));
    SplitLow(a, Pow2(lo), Pow2(mid));
  }

  /** A value below `m * h` divided by `m` is below `h`. */
  lemma TopBelow(a: nat, m: nat, h: nat)
    requires m > 0 && a < m * h
    ensures (a / m) % h == a / m
  {
    var top := a / m;
    assert a == m * top + a % m;
    if top >= h {
      MulStep(m, h - 1, top);
      Distribute(m, h - 1, 1);
      assert false;
    }
    DivModUnique(top, h, 0, top);
  }

  lemma SplitLow(a: nat, pl: nat, pm: nat)
    requires pl > 0 && pm > 0
    ensures (a / (pl * pm)) * (pl * pm) + ((a / pl) % pm) * pl + a % pl == a
  {
    DivModNested(a, pl, pm);
    assert a == (pl * pm) * (a / (pl * pm)) + a % (pl * pm);
  }
}

=== FILE: blockstore.dfy ===
/** Cache blocks, the cache record and its construction. */
module BlockStore {
  import opened Config
  import opened Bits
  import opened Results
  import opened Address
  import opened Codec

  datatype WriteStyle = WriteThrough | WriteBack

  /** One cache line. `tag` is `EMPTY` until the block is first installed;
      `clean` and `valid` are the C flags (1 or 0). */
  datatype Block = Block(setIndex: int, tag: int, clean: int, valid: int, bytes: seq<Byte>)

  /** The cache: its geometry, write policy, address field widths and blocks,
      sets laid out as consecutive runs of `associativity` blocks. */
  datatype Cache = Cache(
    size: nat,
    blockSize: nat,
    numBlocks: nat,
    blocks: seq<Block>,
    associativity: nat,
    writeStyle: WriteStyle,
    widths: Widths)

  /** A block that holds nothing yet: no tag, clean, marked valid, all bytes 0. */
  function NewBlock(blockSize: nat): (b: Block)
    ensures b.tag == EMPTY && b.clean == 1 && b.valid == 1
    ensures |b.bytes| == blockSize
    ensures forall i :: 0 <= i < blockSize ==> b.bytes[i] == 0
  {
    Block(EMPTY, EMPTY, 1, 1, seq(blockSize, _ => 0))
  }

  /** `newCache` with the offset and index widths given; the tag takes the
      remaining bits of the 32-bit word. */
  function NewCache(size: nat, blockSize: nat, associativity: nat, writeStyle: WriteStyle,
                    offsetLength: nat, indexLength: nat): (c: Cache)
    requires blockSize > 0
    requires offsetLength + indexLength <= WORD_SIZE_BITS
    ensures c.numBlocks == |c.blocks| == size / blockSize
    ensures c.blockSize == blockSize && c.associativity == associativity && c.writeStyle == writeStyle
    ensures SplitsWord(c.widths)
    ensures c.widths.offsetLength == offsetLength && c.widths.indexLength == indexLength
    ensures forall i :: 0 <= i < |c.blocks| ==> c.blocks[i] == NewBlock(blockSize)
  {
    var numBlocks := size / blockSize;
    Cache(size, blockSize, numBlocks, seq(numBlocks, _ => NewBlock(blockSize)), associativity,
          writeStyle, Widths(WORD_SIZE_BITS - indexLength - offsetLength, indexLength, offsetLength))
  }

  /** `validate_cache_size`: the cache may exceed neither the hard cap nor the memory. */
  function ValidateCacheSize(size: nat): (o: Outcome)
    ensures o.Pass? <==> size <= MEMORY_CAP && size <= MEMORY_SIZE
    ensures o.Fail? ==> o.error == CacheTooLarge
  {
    if size > MEMORY_CAP || size > MEMORY_SIZE then Fail(CacheTooLarge) else Pass
  }

  function SqrtFrom(n: nat, r: nat): (s: nat)
    requires r * r <= n
    ensures s * s <= n < (s + 1) * (s + 1)
    decreases n - r
  {
    if (r + 1) * (r + 1) <= n then SqrtFrom(n, r + 1) else r
  }

  /** `(int) pow(n, 0.5)`: the square root rounded down. */
  function FloorSqrt(n: nat): (r: nat)
    ensures r * r <= n < (r + 1) * (r + 1)
  {
    SqrtFrom(n, 0)
  }

  /** The logarithm to base 2, rounded down (0 for 0). */
  function FloorLog2(n: nat): (r: nat)
    ensures n >= 1 ==> Pow2(r) <= n < Pow2(r + 1)
  {
    if n <= 1 then 0 else 1 + FloorLog2(n / 2)
  }

  /** Offset and index widths as `newCache` computes them: square roots of the
      block size and of the number of sets, rounded down. */
  function SqrtWidths(blockSize: nat, numSets: nat): (r: (nat, nat))
    ensures r.0 * r.0 <= blockSize < (r.0 + 1) * (r.0 + 1)
    ensures r.1 * r.1 <= numSets < (r.1 + 1) * (r.1 + 1)
  {
    (FloorSqrt(blockSize), FloorSqrt(numSets))
  }

  /** Offset and index widths as the address split needs them: base-2
      logarithms of the block size and of the number of sets, rounded down. */
  function Log2Widths(blockSize: nat, numSets: nat): (r: (nat, nat))
    ensures blockSize >= 1 ==> Pow2(r.0) <= blockSize < Pow2(r.0 + 1)
    ensures numSets >= 1 ==> Pow2(r.1) <= numSets < Pow2(r.1 + 1)
  {
    (FloorLog2(blockSize), FloorLog2(numSets))
  }

  /** With the compiled-in geometry the square roots give an 8-bit offset and a
      2-bit index, so the cache `initialize_cache` builds splits addresses
      22/2/8, and the first address the simulation reads, 17536, has offset
      128: its word lies past the end of a 64-byte block buffer. */
  lemma SqrtWidthsOverrunBlock()
    ensures SqrtWidths(CACHE_BLOCK_SIZE, CACHE_SIZE / CACHE_BLOCK_SIZE / ASSOCIATIVITY) == (8, 2)
    ensures InitializeCache(CACHE_SIZE, CACHE_BLOCK_SIZE, ASSOCIATIVITY, WriteThrough).Success?
    ensures InitializeCache(CACHE_SIZE, CACHE_BLOCK_SIZE, ASSOCIATIVITY, WriteThrough).value.widths
              == Widths(22, 2, 8)
    ensures BlockOffset(Widths(22, 2, 8), 17536) == 128
    ensures BlockOffset(Widths(22, 2, 8), 17536) + WORD_SIZE_BYTES > CACHE_BLOCK_SIZE
  {
    Pow2Word();
    assert FloorSqrt(64) == 8 && FloorSqrt(8) == 2;
  }

  /** With logarithmic widths and a power-of-two block of at least one word,
      every word-aligned address's word lies inside its block. */
  lemma Log2OffsetFits(blockSize: nat, k: nat, w: Widths, address: Addr)
    requires blockSize == Pow2(k) && k >= 2
    requires w.offsetLength == Log2Widths(blockSize, 1).0
    requires address % WORD_SIZE_BYTES == 0
    ensures BlockOffset(w, address) + WORD_SIZE_BYTES <= blockSize
  {
    Log2OfPow2(k);
    var quarter := Pow2(k - 2);
    Pow2Add(2, k - 2);
    assert Pow2(2) == 4;
    assert blockSize == 4 * quarter;
    DivModNested(address, 4, quarter);
    var digit := (address / 4) % quarter;
    assert BlockOffset(w, address) == address % blockSize == 4 * digit;
    MulStep(4, digit, quarter);
  }

  lemma {:induction false} Log2OfPow2(k: nat)
    ensures FloorLog2(Pow2(k)) == k
  {
    if k > 0 {
      Log2OfPow2(k - 1);
      assert Pow2(k) / 2 == Pow2(k - 1);
    }
  }

  /** `Log2OffsetFits` for every word-aligned address at once, stated for any
      block size whose floor logarithm is the offset width. */
  lemma Log2BlockFits(blockSize: nat, w: Widths)
    requires w.offsetLength == FloorLog2(blockSize)
    ensures blockSize == Pow2(FloorLog2(blockSize)) && blockSize >= WORD_SIZE_BYTES ==>
              forall address: Addr :: address % WORD_SIZE_BYTES == 0 ==>
                BlockOffset(w, address) + WORD_SIZE_BYTES <= blockSize
  {
    var k := FloorLog2(blockSize);
    if blockSize == Pow2(k) && blockSize >= WORD_SIZE_BYTES {
      forall address: Addr | address % WORD_SIZE_BYTES == 0
        ensures BlockOffset(w, address) + WORD_SIZE_BYTES <= blockSize
      {
        Log2OffsetFits(blockSize, k, w, address);
      }
    }
  }

  /** `initialize_cache`: refuse a cache that is too large, else build it as
      `newCache` does, with the square-root widths. */
  function InitializeCache(size: nat, blockSize: nat, associativity: nat, writeStyle: WriteStyle): (r: Result<Cache>)
    requires blockSize > 0 && associativity > 0
    requires FloorSqrt(blockSize) + FloorSqrt(size / blockSize / associativity) <= WORD_SIZE_BITS
    ensures r.Failure? <==> size > MEMORY_CAP || size > MEMORY_SIZE
    ensures r.Failure? ==> r.error == CacheTooLarge
    ensures r.Success? ==>
              && r.value.numBlocks == |r.value.blocks| == size / blockSize
              && r.value.blockSize == blockSize && r.value.associativity == associativity
              && r.value.writeStyle == writeStyle
              && (forall i :: 0 <= i < |r.value.blocks| ==> r.value.blocks[i] == NewBlock(blockSize))
              && SplitsWord(r.value.widths)
              && (r.value.widths.offsetLength, r.value.widths.indexLength)
                   == SqrtWidths(blockSize, size / blockSize / associativity)
  {
    match ValidateCacheSize(size)
    case Fail(e) => Failure(e)
    case Pass =>
      var widths := SqrtWidths(blockSize, size / blockSize / associativity);
      Success(NewCache(size, blockSize, associativity, writeStyle, widths.0, widths.1))
  }

  /** `initialize_cache` with the widths the address split needs, base-2
      logarithms: for a power-of-two block of at least one word, the block
      offset of every word-aligned address leaves room for the whole word. */
  function InitializeCacheLog2(size: nat, blockSize: nat, associativity: nat, writeStyle: WriteStyle): (r: Result<Cache>)
    requires blockSize > 0 && associativity > 0
    requires FloorLog2(blockSize) + FloorLog2(size / blockSize / associativity) <= WORD_SIZE_BITS
    ensures r.Failure? <==> size > MEMORY_CAP || size > MEMORY_SIZE
    ensures r.Failure? ==> r.error == CacheTooLarge
    ensures r.Success? ==>
              && r.value.numBlocks == |r.value.blocks| == size / blockSize
              && r.value.blockSize == blockSize && r.value.associativity == associativity
              && r.value.writeStyle == writeStyle
              && (forall i :: 0 <= i < |r.value.blocks| ==> r.value.blocks[i] == NewBlock(blockSize))
              && SplitsWord(r.value.widths)
              && (r.value.widths.offsetLength, r.value.widths.indexLength)
                   == Log2Widths(blockSize, size / blockSize / associativity)
    ensures r.Success? && blockSize == Pow2(FloorLog2(blockSize)) && blockSize >= WORD_SIZE_BYTES ==>
              forall address: Addr :: address % WORD_SIZE_BYTES == 0 ==>
                BlockOffset(r.value.widths, address) + WORD_SIZE_BYTES <= blockSize
  {
    match ValidateCacheSize(size)
    case Fail(e) => Failure(e)
    case Pass =>
      var widths := Log2Widths(blockSize, size / blockSize / associativity);
      var c := NewCache(size, blockSize, associativity, writeStyle, widths.0, widths.1);
      Log2BlockFits(blockSize, c.widths);
      Success(c)
  }
}

=== FILE: codec.dfy ===
/** The little-endian word codec and the canonical initial memory image. */
module Codec {
  import opened Config
  import opened Bits

  /** The unsigned value of one C `char`. */
  type Byte = x: int | 0 <= x < 256

  /** The gathering half of one byte's pass of `int_to_endian`: `n` bits of
      `x`, read lowest first by `% 2` and halving, each pushed in with `<< 1`,
      so the first bit read ends up the most significant. */
  function Gather(x: nat, n: nat): nat
  {
    if n == 0 then 0 else 2 * Gather(x, n - 1) + ShiftRight(x, n - 1) % 2
  }

  /** The reversal half: `n` bits of `v`, read lowest first by `% 2` and
      `>> 1`, each pushed into `acc` with `<< 1`. */
  function Reverse(v: nat, n: nat, acc: nat): nat
  {
    if n == 0 then acc else Reverse(v / 2, n - 1, 2 * acc + v % 2)
  }

  /** Reversing the gathered bits puts them back in their natural order:
      the result is the low `n` bits of `x` below what `acc` already held. */
  lemma {:induction false} ReverseGather(x: nat, n: nat, acc: nat)
    ensures Reverse(Gather(x, n), n, acc) == acc * Pow2(n) + x % Pow2(n)
  {
    if n > 0 {
      var g := Gather(x, n - 1);
      var b := ShiftRight(x, n - 1) % 2;
      DivModUnique(2 * g + b, 2, g, b);
      assert Reverse(Gather(x, n), n, acc) == Reverse(g, n - 1, 2 * acc + b);
      ReverseGather(x, n - 1, 2 * acc + b);
      ShiftRightIsDiv(x, n - 1);
      NextBit(x, Pow2(n - 1), acc);
    }
  }

  /** One step of the reversal: the bit of `x` at weight `p` joins the low bits. */
  lemma NextBit(x: nat, p: nat, acc: nat)
    requires p > 0
    ensures (2 * acc + (x / p) % 2) * p + x % p == acc * (2 * p) + x % (2 * p)
  {
    var b := (x / p) % 2;
    DivModNested(x, p, 2);
    assert p * 2 == 2 * p;
    Distribute(p, 2 * acc, b);
    Associate(acc, 2, p);
  }

  /** Byte `k` of `int_to_endian`: the pass over bits `8k .. 8k+7` of `x`,
      gathered and then reversed. */
  function EndianByte(x: nat, k: nat): (b: Byte)
    ensures b == ExtractInt(x, BYTE_SIZE * k, BYTE_SIZE)
  {
    var y := ShiftRight(x, BYTE_SIZE * k);
    ShiftRightIsDiv(x, BYTE_SIZE * k);
    ReverseGather(y, BYTE_SIZE, 0);
    Pow2Word();
    Reverse(Gather(y, BYTE_SIZE), BYTE_SIZE, 0)
  }

  /** `int_to_endian`: the four bytes of a non-negative `int`, least
      significant first, each from its own gather-then-reverse pass. */
  function IntToEndian(x: int): (w: seq<Byte>)
    requires 0 <= x < 0x8000_0000
    ensures |w| == WORD_SIZE_BYTES
    ensures w[0] == x % 256
    ensures w[1] == (x / 256) % 256
    ensures w[2] == (x / 65536) % 256
    ensures w[3] == x / 16777216
  {
    Pow2Word();
    TopBelow(x, 16777216, 256);
    [EndianByte(x, 0), EndianByte(x, 1), EndianByte(x, 2), EndianByte(x, 3)]
  }

  /** The eight bits of a byte, read one at a time, give the byte. */
  lemma ByteBits(b: Byte)
    ensures LowBits(b, BYTE_SIZE) == b
  {
    Pow2Word();
    LowBitsOfSmall(b, BYTE_SIZE);
  }

  /** The value of four bytes taken least significant first. */
  function LittleEndian(b0: int, b1: int, b2: int, b3: int): int
  {
    b0 + 256 * b1 + 65536 * b2 + 16777216 * b3
  }

  /** `endian_to_int`: bit `j` of byte `i` contributes `2^(j + 8i)`; each byte
      is read as unsigned. */
  function EndianToInt(w: seq<Byte>): (x: nat)
    requires |w| == WORD_SIZE_BYTES
    ensures x == LittleEndian(w[0], w[1], w[2], w[3])
    ensures x < 0x1_0000_0000
  {
    ByteBits(w[0]);
    ByteBits(w[1]);
    ByteBits(w[2]);
    ByteBits(w[3]);
    LowBits(w[0], BYTE_SIZE) + 256 * LowBits(w[1], BYTE_SIZE) + 65536 * LowBits(w[2], BYTE_SIZE)
      + 16777216 * LowBits(w[3], BYTE_SIZE)
  }

  /** Decoding the encoding of a non-negative `int` gives it back. */
  lemma DecodeEncode(x: int)
    requires 0 <= x < 0x8000_0000
    ensures EndianToInt(IntToEndian(x)) == x
  {
    var w := IntToEndian(x);
    var q1, q2, q3 := x / 256, x / 65536, x / 16777216;
    assert x == 256 * q1 + w[0];
    DivModNested(x, 256, 256);
    assert q2 == q1 / 256;
    assert q1 == 256 * q2 + w[1];
    DivModNested(x, 65536, 256);
    assert q3 == q2 / 256;
    assert q2 == 256 * q3 + w[2];
    assert w[3] == q3;
  }

  /** Encoding the decoded value of four bytes whose top byte keeps the sign
      bit clear gives the same bytes back. */
  lemma EncodeDecode(w: seq<Byte>)
    requires |w| == WORD_SIZE_BYTES && w[3] < 128
    ensures IntToEndian(EndianToInt(w)) == w
  {
    var x := EndianToInt(w);
    var hi: int := LittleEndian(w[1], w[2], w[3], 0);
    assert x == 256 * hi + w[0];
    DivModUnique(x, 256, hi, w[0]);
    var hi2: int := LittleEndian(w[2], w[3], 0, 0);
    assert hi == 256 * hi2 + w[1];
    DivModUnique(hi, 256, hi2, w[1]);
    DivModNested(x, 256, 256);
    DivModUnique(hi2, 256, w[3], w[2]);
    DivModNested(x, 65536, 256);
    DivModUnique(x, 16777216, w[3], LittleEndian(w[0], w[1], w[2], 0));
    var e := IntToEndian(x);
    assert e[0] == w[0] && e[1] == w[1] && e[2] == w[2] && e[3] == w[3];
  }

  /** The memory image `initialize_memory` builds: every word-aligned region
      `[i, i + 4)` holds the encoding of `i`. Byte `a` is byte `a % 4` of the
      encoding of the word that contains it. */
  ghost predicate Initialized(mem: seq<Byte>)
  {
    && |mem| == MEMORY_SIZE
    && forall a :: 0 <= a < |mem| ==> mem[a] == InitialByte(a)
  }

  function InitialByte(a: nat): Byte
    requires a < MEMORY_SIZE
  {
    IntToEndian(a - a % WORD_SIZE_BYTES)[a % WORD_SIZE_BYTES]
  }

  method InitializeMemory() returns (mem: seq<Byte>)
    ensures Initialized(mem)
  {
    mem := [];
    var i := 0;
    ghost var words := 0;
    while i < MEMORY_SIZE
      invariant i == WORD_SIZE_BYTES * words <= MEMORY_SIZE
      invariant |mem| == i
      invariant forall a :: 0 <= a < i ==> mem[a] == InitialByte(a)
    {
      assert words < MEMORY_SIZE / WORD_SIZE_BYTES;
      var word := IntToEndian(i);
      AppendWord(mem, i, words);
      mem := mem + word;
      i := i + WORD_SIZE_BYTES;
      words := words + 1;
    }
  }

  /** Appending the encoding of the next word address extends an image that
      is correct so far by four correct bytes. */
  lemma AppendWord(mem: seq<Byte>, i: nat, words: nat)
    requires i == WORD_SIZE_BYTES * words && i + WORD_SIZE_BYTES <= MEMORY_SIZE && |mem| == i
    requires forall a :: 0 <= a < i ==> mem[a] == InitialByte(a)
    ensures forall a :: 0 <= a < i + WORD_SIZE_BYTES ==> (mem + IntToEndian(i))[a] == InitialByte(a)
  {
    var word := IntToEndian(i);
    forall a | 0 <= a < i + WORD_SIZE_BYTES
      ensures (mem + word)[a] == InitialByte(a)
    {
      if a >= i {
        WordBase(a, words);
      }
    }
  }

  /** A byte of the word starting at `4 * words` belongs to that word. */
  lemma WordBase(a: nat, words: nat)
    requires WORD_SIZE_BYTES * words <= a < WORD_SIZE_BYTES * words + WORD_SIZE_BYTES
    ensures a - a % WORD_SIZE_BYTES == WORD_SIZE_BYTES * words
  {
    DivModUnique(a, WORD_SIZE_BYTES, words, a - WORD_SIZE_BYTES * words);
  }

  /** In the initial image the word at every aligned address decodes to that
      address. */
  lemma InitialWordIsAddress(mem: seq<Byte>, i: nat)
    requires Initialized(mem)
    requires i % WORD_SIZE_BYTES == 0 && i < MEMORY_SIZE
    ensures EndianToInt(mem[i..i + WORD_SIZE_BYTES]) == i
  {
    var w := mem[i..i + WORD_SIZE_BYTES];
    var e := IntToEndian(i);
    forall k | 0 <= k < WORD_SIZE_BYTES
      ensures w[k] == e[k]
    {
      InitialWordByte(mem, i, k);
    }
    DecodeEncode(i);
    assert EndianToInt(w) == LittleEndian(e[0], e[1], e[2], e[3]) == EndianToInt(e);
  }

  /** Byte `k` of the word at an aligned address of the initial image is byte
      `k` of the encoding of that address. */
  lemma InitialWordByte(mem: seq<Byte>, i: nat, k: nat)
    requires Initialized(mem)
    requires i % WORD_SIZE_BYTES == 0 && i < MEMORY_SIZE && k < WORD_SIZE_BYTES
    ensures mem[i + k] == IntToEndian(i)[k]
  {
    AlignedByte(i, k);
    assert mem[i + k] == InitialByte(i + k);
  }

  /** Byte `k` past an aligned address in memory is in memory, and lies in
      the word at that address. */
  lemma AlignedByte(i: nat, k: nat)
    requires i % WORD_SIZE_BYTES == 0 && i < MEMORY_SIZE && k < WORD_SIZE_BYTES
    ensures i + k < MEMORY_SIZE
    ensures (i + k) % WORD_SIZE_BYTES == k && (i + k) - (i + k) % WORD_SIZE_BYTES == i
  {
    var words := i / WORD_SIZE_BYTES;
    assert i == WORD_SIZE_BYTES * words;
    assert words < MEMORY_SIZE / WORD_SIZE_BYTES;
    WordBase(i + k, words);
  }

}

=== FILE: config.dfy ===
/** The compile-time configuration of the simulator. */
module Config {
  const WORD_SIZE_BITS: nat := 32
  const BYTE_SIZE: nat := 8
  /** `WORD_SIZE_BITS / BYTE_SIZE`. */
  const WORD_SIZE_BYTES: nat := 4
  const CACHE_SIZE: nat := 1024
  const CACHE_BLOCK_SIZE: nat := 64
  const MEMORY_SIZE: nat := 65536
  /** Number of blocks per set. */
  const ASSOCIATIVITY: nat := 2
  const MEMORY_CAP: nat := 500000

  /** Every per-set recency queue is created with this many slots: the block
      size times the associativity, not the associativity alone. */
  const QUEUE_SIZE: nat := CACHE_BLOCK_SIZE * ASSOCIATIVITY

  /** The slot marker of a recency queue that holds no tag yet. The same value
      marks a block that has never been assigned a tag. */
  const EMPTY: int := -1
}

=== FILE: controller.dfy ===
/** The cache controller: lookup, install, and the read and write paths that
    tie the blocks, the recency queues and the memory together. */
module Controller {
  import opened Config
  import opened Bits
  import opened Results
  import opened Address
  import opened Codec
  import opened Lru
  import opened BlockStore

  datatype Probe = WordHit | WordMiss

  /** Everything one simulation run owns. The recency queues are only used when
      the cache has more than one block per set. */
  datatype State = State(cache: Cache, lru: Lru, memory: seq<Byte>)

  function NumSets(c: Cache): (n: nat)
    requires c.associativity > 0
    ensures c.associativity <= c.numBlocks ==> n >= 1
  {
    AtLeastOneSet(c.numBlocks, c.associativity);
    c.numBlocks / c.associativity
  }

  lemma AtLeastOneSet(numBlocks: nat, associativity: nat)
    requires associativity > 0
    ensures associativity <= numBlocks ==> numBlocks / associativity >= 1
  {
    var q := numBlocks / associativity;
    assert numBlocks == associativity * q + numBlocks % associativity;
    if q == 0 {
      assert numBlocks == numBlocks % associativity;
    }
  }

  /** The shape every operation relies on. The set number of the lookup is
      held in a `char`, so at most 128 sets keep it exact. */
  ghost predicate Valid(s: State)
  {
    var c := s.cache;
    && c.numBlocks == |c.blocks| > 0
    && 1 <= c.associativity <= c.numBlocks
    && (forall i :: 0 <= i < |c.blocks| ==> |c.blocks[i].bytes| == c.blockSize)
    && (c.associativity > 1 ==>
          && |s.lru.queues| == NumSets(c) <= 128
          && forall i :: 0 <= i < |s.lru.queues| ==> |s.lru.queues[i]| > 0 && WellFormed(s.lru.queues[i]))
  }

  /** The blocks of set `k` are `associativity * k` up to but excluding
      `associativity * (k + 1)`, all inside the cache. */
  lemma SetInRange(c: Cache, k: nat)
    requires 1 <= c.associativity && c.numBlocks == |c.blocks|
    requires k < NumSets(c)
    ensures c.associativity * k + c.associativity <= |c.blocks|
  {
    var n := NumSets(c);
    assert c.numBlocks == c.associativity * n + c.numBlocks % c.associativity;
    MulStep(c.associativity, k, n);
  }

  /** The first block of set `k`. */
  function SetStart(c: Cache, k: nat): (lo: nat)
    requires 1 <= c.associativity && c.numBlocks == |c.blocks|
    requires k < NumSets(c)
    ensures lo + c.associativity <= |c.blocks|
  {
    SetInRange(c, k);
    c.associativity * k
  }

  /** The set an address goes to on the set-associative path. */
  function SetOf(c: Cache, address: Addr): nat
    requires c.associativity > 0 && NumSets(c) > 0
  {
    address % NumSets(c)
  }

  /** Some block of set `k` carries `tag`. */
  predicate SetHolds(c: Cache, k: nat, tag: int)
    requires 1 <= c.associativity && c.numBlocks == |c.blocks| && k < NumSets(c)
  {
    var lo := SetStart(c, k);
    exists j :: lo <= j < lo + c.associativity && c.blocks[j].tag == tag
  }

  /** The place a lookup of `address` inspects carries the address's tag:
      the selected block on the direct-mapped path, some block of the set on
      the set-associative path. */
  predicate Holds(c: Cache, address: Addr)
    requires 1 <= c.associativity <= c.numBlocks == |c.blocks|
  {
    if c.associativity == 1 then c.blocks[address % c.numBlocks].tag == Tag(c.widths, address)
    else SetHolds(c, SetOf(c, address), Tag(c.widths, address))
  }

  /** The outcome of a lookup: the recency queues after it and hit or miss. */
  datatype Checked = Checked(lru: Lru, probe: Probe)

  /** `check_cache`. Direct-mapped: one tag comparison with the block the
      address's remainder selects. Set-associative: refresh the set's recency
      queue, then compare the tag with every block of the set. Neither path
      looks at the valid flag. */
  function CheckCache(s: State, address: Addr): (r: Result<Checked>)
    requires Valid(s)
    ensures r.Success? ==> (r.value.probe == WordHit <==> Holds(s.cache, address))
    ensures r.Success? ==> Valid(s.(lru := r.value.lru))
    ensures s.cache.associativity == 1 ==>
              && r.Success?
              && r.value.lru == s.lru
              && (r.value.probe == WordHit <==>
                    s.cache.blocks[address % s.cache.numBlocks].tag == Tag(s.cache.widths, address))
    ensures s.cache.associativity > 1 ==>
              var k := SetOf(s.cache, address);
              && (r.Failure? <==> k > |s.lru.queues[k]|)
              && (r.Success? ==>
                    && r.value.lru.queues
                         == s.lru.queues[k := AddTag(s.lru.queues[k], Tag(s.cache.widths, address)).queue]
                    && (r.value.probe == WordHit <==> SetHolds(s.cache, k, Tag(s.cache.widths, address))))
  {
    var c := s.cache;
    var tag := Tag(c.widths, address);
    if c.associativity == 1 then
      Success(Checked(s.lru, if tag == c.blocks[address % c.numBlocks].tag then WordHit else WordMiss))
    else
      var k := SetOf(c, address);
      var touched :- GetEvictedTag(s.lru, k, tag);
      assert touched.lru.queues == s.lru.queues[k := AddTag(s.lru.queues[k], tag).queue];
      TouchKeepsWellFormed(s.lru.queues[k], tag);
      Success(Checked(touched.lru, if SetHolds(c, k, tag) then WordHit else WordMiss))
  }

  /** `t` differs from `s` at most in block contents, queue contents and
      memory contents: geometry, policy, widths and every size stay. */
  ghost predicate Preserves(s: State, t: State)
  {
    && t.cache == s.cache.(blocks := t.cache.blocks)
    && |t.cache.blocks| == |s.cache.blocks|
    && (forall i :: 0 <= i < |s.cache.blocks| ==> |t.cache.blocks[i].bytes| == |s.cache.blocks[i].bytes|)
    && |t.lru.queues| == |s.lru.queues|
    && (forall i :: 0 <= i < |s.lru.queues| ==> |t.lru.queues[i]| == |s.lru.queues[i]|)
    && |t.memory| == |s.memory|
  }

  /** `bytes` with `word` written over positions `offset .. offset + 3`. */
  function Splice(bytes: seq<Byte>, offset: nat, word: seq<Byte>): (r: seq<Byte>)
    requires |word| == WORD_SIZE_BYTES && offset + WORD_SIZE_BYTES <= |bytes|
    ensures |r| == |bytes|
    ensures forall i :: 0 <= i < |r| ==>
              r[i] == if offset <= i < offset + WORD_SIZE_BYTES then word[i - offset] else bytes[i]
  {
    bytes[..offset] + word + bytes[offset + WORD_SIZE_BYTES..]
  }

  /** A block after an install: the new tag, valid and clean, the word copied
      in at `offset`. */
  function Fill(b: Block, tag: int, offset: nat, word: seq<Byte>): (r: Block)
    requires |word| == WORD_SIZE_BYTES && offset + WORD_SIZE_BYTES <= |b.bytes|
    ensures r.tag == tag && r.valid == 1 && r.clean == 1 && r.setIndex == b.setIndex
    ensures r.bytes == Splice(b.bytes, offset, word)
  {
    b.(tag := tag, valid := 1, clean := 1, bytes := Splice(b.bytes, offset, word))
  }

  /** The victim scan for an evicted tag: the scan does not stop at a match, so
      the last block of `lo .. lo + n - 1` carrying `tag` is chosen. */
  function LastWithTag(blocks: seq<Block>, lo: nat, n: nat, tag: int): (r: Option<nat>)
    requires lo + n <= |blocks|
    ensures r.None? <==> forall i :: lo <= i < lo + n ==> blocks[i].tag != tag
    ensures r.Some? ==>
              && lo <= r.value < lo + n
              && blocks[r.value].tag == tag
              && forall i :: r.value < i < lo + n ==> blocks[i].tag != tag
  {
    if n == 0 then None
    else if blocks[lo + n - 1].tag == tag then Some(lo + n - 1)
    else LastWithTag(blocks, lo, n - 1, tag)
  }

  /** The word at `offset` is all zero bytes, the scan's sign of a free block. */
  predicate ZeroWord(bytes: seq<Byte>, offset: nat)
    requires offset + WORD_SIZE_BYTES <= |bytes|
  {
    forall j :: offset <= j < offset + WORD_SIZE_BYTES ==> bytes[j] == 0
  }

  /** The victim scan when nothing was evicted: the first block of
      `lo .. lo + n - 1` whose word at `offset` is zero. */
  function FirstZero(blocks: seq<Block>, lo: nat, n: nat, offset: nat): (r: Option<nat>)
    requires lo + n <= |blocks|
    requires forall i :: lo <= i < lo + n ==> offset + WORD_SIZE_BYTES <= |blocks[i].bytes|
    ensures r.None? <==> forall i :: lo <= i < lo + n ==> !ZeroWord(blocks[i].bytes, offset)
    ensures r.Some? ==>
              && lo <= r.value < lo + n
              && ZeroWord(blocks[r.value].bytes, offset)
              && forall i :: lo <= i < r.value ==> !ZeroWord(blocks[i].bytes, offset)
    decreases n
  {
    if n == 0 then None
    else if ZeroWord(blocks[lo].bytes, offset) then Some(lo)
    else FirstZero(blocks, lo + 1, n - 1, offset)
  }

  /** The word of memory at `address`. */
  function MemoryWord(memory: seq<Byte>, address: nat): (w: seq<Byte>)
    requires address + WORD_SIZE_BYTES <= |memory|
    ensures |w| == WORD_SIZE_BYTES
    ensures forall i :: 0 <= i < WORD_SIZE_BYTES ==> w[i] == memory[address + i]
  {
    memory[address..address + WORD_SIZE_BYTES]
  }

  /** The block the n-way install overwrites, if the scan finds one. With an
      evicted tag, the last block of the set carrying it; with none, the first
      block of the set whose word at the offset is zero. */
  function Victim(c: Cache, k: nat, evicted: int, offset: nat): (r: Option<nat>)
    requires 1 <= c.associativity && c.numBlocks == |c.blocks| && k < NumSets(c)
    requires forall i :: 0 <= i < |c.blocks| ==> |c.blocks[i].bytes| == c.blockSize
    requires offset + WORD_SIZE_BYTES <= c.blockSize
    ensures r.Some? ==> SetStart(c, k) <= r.value < SetStart(c, k) + c.associativity
    ensures evicted != EMPTY ==>
              (r.None? <==> !SetHolds(c, k, evicted))
              && (r.Some? ==> c.blocks[r.value].tag == evicted)
    ensures evicted != EMPTY && r.Some? ==>
              forall i :: r.value < i < SetStart(c, k) + c.associativity ==> c.blocks[i].tag != evicted
    ensures evicted == EMPTY ==>
              (r.None? <==> forall i :: SetStart(c, k) <= i < SetStart(c, k) + c.associativity ==>
                                        !ZeroWord(c.blocks[i].bytes, offset))
    ensures evicted == EMPTY && r.Some? ==>
              && ZeroWord(c.blocks[r.value].bytes, offset)
              && forall i :: SetStart(c, k) <= i < r.value ==> !ZeroWord(c.blocks[i].bytes, offset)
  {
    var lo := SetStart(c, k);
    if evicted != EMPTY then
      LastWithTag(c.blocks, lo, c.associativity, evicted)
    else
      FirstZero(c.blocks, lo, c.associativity, offset)
  }

  /** Block `i` is one an install of `address` may overwrite: the block the
      remainder selects on the direct-mapped path, a block of the address's set
      on the set-associative path. */
  predicate InstallSpot(c: Cache, address: Addr, i: nat)
    requires 1 <= c.associativity <= c.numBlocks == |c.blocks|
  {
    if c.associativity == 1 then i == address % c.numBlocks
    else SetStart(c, SetOf(c, address)) <= i < SetStart(c, SetOf(c, address)) + c.associativity
  }

  /** `after` differs from the blocks of `c` in at most one block, and only in
      a block an install of `address` may overwrite. */
  ghost predicate InstallFrame(c: Cache, address: Addr, after: seq<Block>)
    requires 1 <= c.associativity <= c.numBlocks == |c.blocks|
  {
    && |after| == |c.blocks|
    && (forall i :: 0 <= i < |c.blocks| && !InstallSpot(c, address, i) ==> after[i] == c.blocks[i])
    && (forall i, j :: 0 <= i < j < |c.blocks| ==> after[i] == c.blocks[i] || after[j] == c.blocks[j])
  }

  /** `pass_word_to_cache`: copy the word at `address` from memory into the
      cache. Direct-mapped: into the block the remainder selects. Set-associative:
      refresh the set's recency queue a second time and overwrite the block
      holding the tag it reports evicted, or, when it reports none, the first
      block whose word at the offset is zero; with no such block the install
      has nothing to write to. */
  function Install(s: State, address: Addr): (r: Result<State>)
    requires Valid(s)
    requires BlockOffset(s.cache.widths, address) + WORD_SIZE_BYTES <= s.cache.blockSize
    requires address + WORD_SIZE_BYTES <= |s.memory|
    ensures r.Success? ==>
              && Valid(r.value)
              && Preserves(s, r.value)
              && r.value.memory == s.memory
              && Holds(r.value.cache, address)
              && InstallFrame(s.cache, address, r.value.cache.blocks)
    ensures s.cache.associativity == 1 ==>
              && r.Success?
              && r.value.lru == s.lru
              && r.value.cache.blocks
                   == s.cache.blocks[address % s.cache.numBlocks :=
                        Fill(s.cache.blocks[address % s.cache.numBlocks], Tag(s.cache.widths, address),
                             BlockOffset(s.cache.widths, address), MemoryWord(s.memory, address))]
    ensures s.cache.associativity > 1 ==>
              var k := SetOf(s.cache, address);
              var t := AddTag(s.lru.queues[k], Tag(s.cache.widths, address));
              && (k > |s.lru.queues[k]| ==> r == Failure(InvalidAddress))
              && (k <= |s.lru.queues[k]| ==>
                    && (r.Failure? <==> Victim(s.cache, k, t.evicted, BlockOffset(s.cache.widths, address)).None?)
                    && (r.Failure? ==> r.error == NoVictim))
              && (r.Success? ==>
                    && r.value.lru.queues == s.lru.queues[k := t.queue]
                    && var v := Victim(s.cache, k, t.evicted, BlockOffset(s.cache.widths, address)).value;
                       r.value.cache.blocks
                         == s.cache.blocks[v := Fill(s.cache.blocks[v], Tag(s.cache.widths, address),
                                                     BlockOffset(s.cache.widths, address),
                                                     MemoryWord(s.memory, address))])
  {
    var c := s.cache;
    var tag := Tag(c.widths, address);
    var offset := BlockOffset(c.widths, address);
    var word := MemoryWord(s.memory, address);
    if c.associativity == 1 then
      var b := address % c.numBlocks;
      var filled := Fill(c.blocks[b], tag, offset, word);
      OverwriteKeepsShape(s, address, b, filled, s.lru);
      Success(State(c.(blocks := c.blocks[b := filled]), s.lru, s.memory))
    else
      var k := SetOf(c, address);
      var touched :- GetEvictedTag(s.lru, k, tag);
      TouchKeepsValid(s, k, tag, touched.lru);
      match Victim(c, k, touched.evicted, offset)
      case None => Failure(NoVictim)
      case Some(v) =>
        var filled := Fill(c.blocks[v], tag, offset, word);
        OverwriteKeepsShape(s, address, v, filled, touched.lru);
        assert filled.tag == tag;
        Success(State(c.(blocks := c.blocks[v := filled]), touched.lru, s.memory))
  }

  /** Refreshing the queue of set `k` keeps every invariant of the state. */
  lemma TouchKeepsValid(s: State, k: nat, tag: int, lru: Lru)
    requires Valid(s) && s.cache.associativity > 1 && k < |s.lru.queues| && tag != EMPTY
    requires lru.queues == s.lru.queues[k := AddTag(s.lru.queues[k], tag).queue]
    ensures Valid(s.(lru := lru)) && Preserves(s, s.(lru := lru))
  {
    TouchKeepsWellFormed(s.lru.queues[k], tag);
  }

  /** Overwriting one block an install may target with a block of the same
      size keeps every invariant and stays inside the install's frame. */
  lemma OverwriteKeepsShape(s: State, address: Addr, v: nat, blk: Block, lru: Lru)
    requires Valid(s) && v < |s.cache.blocks| && InstallSpot(s.cache, address, v)
    requires |blk.bytes| == s.cache.blockSize
    requires Valid(s.(lru := lru)) && Preserves(s, s.(lru := lru))
    ensures var t := State(s.cache.(blocks := s.cache.blocks[v := blk]), lru, s.memory);
            && Valid(t) && Preserves(s, t)
            && InstallFrame(s.cache, address, t.cache.blocks)
  {
  }

  /** The result of a read: the state after it and whether it hit. */
  datatype Access = Access(state: State, probe: Probe)

  /** The word at the address's block offset lies inside the block's bytes. */
  predicate WordFitsBlock(c: Cache, address: Addr)
  {
    BlockOffset(c.widths, address) + WORD_SIZE_BYTES <= c.blockSize
  }

  /** Look the address up and, on a miss, install its word from memory: the
      part of an access the read and the write-through paths share. A miss on
      a word that ends past the memory, or past its block's bytes, would copy
      bytes beyond a buffer; the model stops there. A hit touches no bytes. */
  function Resolve(s: State, address: Addr): (r: Result<Access>)
    requires Valid(s)
    ensures r.Success? ==>
              && Valid(r.value.state)
              && Preserves(s, r.value.state)
              && r.value.state.memory == s.memory
              && (r.value.probe == WordHit <==> Holds(s.cache, address))
              && Holds(r.value.state.cache, address)
              && InstallFrame(s.cache, address, r.value.state.cache.blocks)
    ensures r.Success? && r.value.probe == WordMiss ==>
              address + WORD_SIZE_BYTES <= |s.memory| && WordFitsBlock(s.cache, address)
    ensures r.Success? && r.value.probe == WordHit ==> r.value.state.cache == s.cache
    ensures s.cache.associativity == 1 && r.Success? ==> r.value.state.lru == s.lru
    ensures s.cache.associativity == 1 ==>
              (r.Failure? <==>
                 !Holds(s.cache, address)
                 && (address + WORD_SIZE_BYTES > |s.memory| || !WordFitsBlock(s.cache, address)))
    ensures (CheckCache(s, address).Success? && !Holds(s.cache, address)
             && address + WORD_SIZE_BYTES > |s.memory|) ==> r == Failure(WordPastMemory)
    ensures (CheckCache(s, address).Success? && !Holds(s.cache, address)
             && address + WORD_SIZE_BYTES <= |s.memory| && !WordFitsBlock(s.cache, address))
              ==> r == Failure(BlockOverrun)
    ensures s.cache.associativity > 1 && SetOf(s.cache, address) > |s.lru.queues[SetOf(s.cache, address)]| ==>
              r == Failure(InvalidAddress)
  {
    var checked :- CheckCache(s, address);
    var s1 := s.(lru := checked.lru);
    if checked.probe == WordHit then
      Success(Access(s1, WordHit))
    else if address + WORD_SIZE_BYTES > |s.memory| then
      Failure(WordPastMemory)
    else if !WordFitsBlock(s.cache, address) then
      Failure(BlockOverrun)
    else
      var s2 :- Install(s1, address);
      Success(Access(s2, WordMiss))
  }

  /** `read_word`: validate the address with the check as written, look it
      up, and on a miss install the word from memory. The address equal to the
      memory size passes the check: it hits when its tag is where the lookup
      looks, and on a miss the copy runs past the memory. The word the source
      returns is never set, so the model returns only the state and the
      classification. */
  function ReadWord(s: State, address: Addr): (r: Result<Access>)
    requires Valid(s) && |s.memory| == MEMORY_SIZE
    ensures address % WORD_SIZE_BYTES != 0 || address > MEMORY_SIZE ==> r == Failure(InvalidAddress)
    ensures r.Success? ==> address % WORD_SIZE_BYTES == 0 && address <= MEMORY_SIZE
    ensures ValidateAddressAsWritten(address).Pass? ==> r == Resolve(s, address)
    ensures ValidateAddressAsWritten(address).Pass? && s.cache.associativity == 1 && Holds(s.cache, address) ==>
              r == Success(Access(s, WordHit))
    ensures address == MEMORY_SIZE && s.cache.associativity == 1 ==>
              (r.Success? <==> Holds(s.cache, address))
  {
    match ValidateAddressAsWritten(address)
    case Fail(e) => Failure(e)
    case Pass => Resolve(s, address)
  }

  /** `read_word` with the corrected address check: only addresses whose whole
      word lies in memory are let through, so no read copies past the memory. */
  function ReadWordChecked(s: State, address: Addr): (r: Result<Access>)
    requires Valid(s) && |s.memory| == MEMORY_SIZE
    ensures ValidateAddress(address).Fail? ==> r == Failure(InvalidAddress)
    ensures r.Success? ==> address % WORD_SIZE_BYTES == 0 && address + WORD_SIZE_BYTES <= MEMORY_SIZE
    ensures r.Failure? ==> r.error != WordPastMemory
    ensures s.cache.associativity == 1 && ValidateAddress(address).Pass? ==>
              (r.Success? <==> Holds(s.cache, address) || WordFitsBlock(s.cache, address))
  {
    match ValidateAddress(address)
    case Fail(e) => Failure(e)
    case Pass => Resolve(s, address)
  }

  /** The two reads differ on exactly one address, the memory size: the
      corrected read refuses it, while the read as written looks it up. */
  lemma ReadWordVariants(s: State, address: Addr)
    requires Valid(s) && |s.memory| == MEMORY_SIZE
    ensures address != MEMORY_SIZE ==> ReadWordChecked(s, address) == ReadWord(s, address)
    ensures address == MEMORY_SIZE ==>
              && ReadWordChecked(s, address) == Failure(InvalidAddress)
              && ReadWord(s, address) == Resolve(s, address)
  {
    if address != MEMORY_SIZE && address % WORD_SIZE_BYTES == 0 && address < MEMORY_SIZE {
      assert address + WORD_SIZE_BYTES <= MEMORY_SIZE;
    }
  }

  /** `write_word`. Write-through: look the address up, install on a miss,
      then write the word into memory and into the block the address's
      remainder selects (on the set-associative path that block need not be
      in the address's set). Write-back: nothing happens. The address is not
      validated, so a word that ends past the memory or past its block's
      bytes would be written beyond a buffer; the model stops there. */
  function WriteWord(s: State, address: Addr, word: seq<Byte>): (r: Result<State>)
    requires Valid(s)
    requires |word| == WORD_SIZE_BYTES
    ensures s.cache.writeStyle == WriteBack ==> r == Success(s)
    ensures (s.cache.writeStyle == WriteThrough
             && (address + WORD_SIZE_BYTES > |s.memory| || !WordFitsBlock(s.cache, address))) ==> r.Failure?
    ensures (s.cache.writeStyle == WriteThrough
             && address + WORD_SIZE_BYTES <= |s.memory| && WordFitsBlock(s.cache, address)) ==>
              (r.Success? <==> Resolve(s, address).Success?)
    ensures s.cache.writeStyle == WriteThrough && r.Success? ==>
              WordFitsBlock(s.cache, address) && WroteThrough(s, address, word, r.value)
    ensures s.cache.writeStyle == WriteThrough && r.Success? ==>
              Resolve(s, address).Success? && r.value.lru == Resolve(s, address).value.state.lru
  {
    if s.cache.writeStyle == WriteBack then
      Success(s)
    else
      var resolved :- Resolve(s, address);
      if address + WORD_SIZE_BYTES > |s.memory| then
        Failure(WordPastMemory)
      else if !WordFitsBlock(s.cache, address) then
        Failure(BlockOverrun)
      else
        StoreAfterResolve(s, resolved.state, address, word);
        Success(Store(resolved.state, address, word))
  }

  /** What a successful write-through leaves behind: the word in memory and in
      the remainder block at the offset, every other memory byte as it was, no
      block changed beyond the remainder block and one install target, and the
      tag where the next lookup looks. */
  ghost predicate WroteThrough(s: State, address: Addr, word: seq<Byte>, t: State)
    requires Valid(s) && |word| == WORD_SIZE_BYTES
    requires BlockOffset(s.cache.widths, address) + WORD_SIZE_BYTES <= s.cache.blockSize
  {
    var b := address % s.cache.numBlocks;
    var offset := BlockOffset(s.cache.widths, address);
    && Valid(t)
    && Preserves(s, t)
    && address + WORD_SIZE_BYTES <= |s.memory|
    && MemoryWord(t.memory, address) == word
    && (forall i :: 0 <= i < |s.memory| && !(address <= i < address + WORD_SIZE_BYTES) ==>
          t.memory[i] == s.memory[i])
    && (forall j :: 0 <= j < WORD_SIZE_BYTES ==> t.cache.blocks[b].bytes[offset + j] == word[j])
    && WriteFrame(s.cache, address, t.cache.blocks)
    && Holds(t.cache, address)
  }

  /** The store that follows a successful lookup-and-install completes a
      write-through. */
  lemma StoreAfterResolve(s: State, s2: State, address: Addr, word: seq<Byte>)
    requires Valid(s) && |word| == WORD_SIZE_BYTES
    requires BlockOffset(s.cache.widths, address) + WORD_SIZE_BYTES <= s.cache.blockSize
    requires address + WORD_SIZE_BYTES <= |s.memory|
    requires Valid(s2) && Preserves(s, s2) && s2.memory == s.memory
    requires InstallFrame(s.cache, address, s2.cache.blocks) && Holds(s2.cache, address)
    ensures WroteThrough(s, address, word, Store(s2, address, word))
  {
    var t := Store(s2, address, word);
    PreservesChain(s, s2, t);
    StoreWritesWord(s, s2, address, word);
    StoreKeepsFrame(s.cache, s2.cache, t.cache, address);
    SameTagsSameHolds(s2.cache, t.cache, address);
  }

  /** The memory and block bytes a store leaves behind, stated against the
      state before the lookup-and-install that preceded it. */
  lemma StoreWritesWord(s: State, s2: State, address: Addr, word: seq<Byte>)
    requires Valid(s) && |word| == WORD_SIZE_BYTES
    requires BlockOffset(s.cache.widths, address) + WORD_SIZE_BYTES <= s.cache.blockSize
    requires address + WORD_SIZE_BYTES <= |s.memory|
    requires Valid(s2) && Preserves(s, s2) && s2.memory == s.memory
    ensures var t := Store(s2, address, word);
            && MemoryWord(t.memory, address) == word
            && (forall i :: 0 <= i < |s.memory| && !(address <= i < address + WORD_SIZE_BYTES) ==>
                  t.memory[i] == s.memory[i])
            && forall j :: 0 <= j < WORD_SIZE_BYTES ==>
                 t.cache.blocks[address % s.cache.numBlocks].bytes[BlockOffset(s.cache.widths, address) + j] == word[j]
  {
    assert s2.cache.numBlocks == s.cache.numBlocks && s2.cache.widths == s.cache.widths;
  }

  /** Two steps that each keep the shape keep it together. */
  lemma PreservesChain(s: State, s2: State, t: State)
    requires Preserves(s, s2) && Preserves(s2, t)
    ensures Preserves(s, t)
  {
  }

  /** `after` differs from the blocks of `c` only in the block the address's
      remainder selects and in at most one further block, which an install of
      `address` may overwrite. */
  ghost predicate WriteFrame(c: Cache, address: Addr, after: seq<Block>)
    requires 1 <= c.associativity <= c.numBlocks == |c.blocks|
  {
    var b := address % c.numBlocks;
    && |after| == |c.blocks|
    && (forall i :: 0 <= i < |c.blocks| && i != b && !InstallSpot(c, address, i) ==> after[i] == c.blocks[i])
    && (forall i, j :: 0 <= i < j < |c.blocks| && i != b && j != b ==>
          after[i] == c.blocks[i] || after[j] == c.blocks[j])
  }

  /** An install followed by a store into the remainder block changes no block
      beyond those two. */
  lemma StoreKeepsFrame(c: Cache, installed: Cache, stored: Cache, address: Addr)
    requires 1 <= c.associativity <= c.numBlocks == |c.blocks|
    requires InstallFrame(c, address, installed.blocks)
    requires |stored.blocks| == |installed.blocks|
    requires forall i :: 0 <= i < |installed.blocks| && i != address % c.numBlocks ==>
               stored.blocks[i] == installed.blocks[i]
    ensures WriteFrame(c, address, stored.blocks)
  {
  }

  /** The data transfer of a write-through: the word goes into memory and into
      the block the address's remainder selects; no tag changes. */
  function Store(s: State, address: Addr, word: seq<Byte>): (t: State)
    requires Valid(s)
    requires address + WORD_SIZE_BYTES <= |s.memory|
    requires BlockOffset(s.cache.widths, address) + WORD_SIZE_BYTES <= s.cache.blockSize
    requires |word| == WORD_SIZE_BYTES
    ensures Valid(t) && Preserves(s, t) && t.lru == s.lru
    ensures MemoryWord(t.memory, address) == word
    ensures forall i :: 0 <= i < |s.memory| && !(address <= i < address + WORD_SIZE_BYTES) ==>
              t.memory[i] == s.memory[i]
    ensures forall j :: 0 <= j < WORD_SIZE_BYTES ==>
              t.cache.blocks[address % s.cache.numBlocks].bytes[BlockOffset(s.cache.widths, address) + j] == word[j]
    ensures forall i :: 0 <= i < |s.cache.blocks| ==> t.cache.blocks[i].tag == s.cache.blocks[i].tag
    ensures forall i :: 0 <= i < |s.cache.blocks| && i != address % s.cache.numBlocks ==>
              t.cache.blocks[i] == s.cache.blocks[i]
    ensures var b := address % s.cache.numBlocks;
            var offset := BlockOffset(s.cache.widths, address);
            && t.cache.blocks[b].setIndex == s.cache.blocks[b].setIndex
            && t.cache.blocks[b].valid == s.cache.blocks[b].valid
            && t.cache.blocks[b].clean == s.cache.blocks[b].clean
            && forall j :: 0 <= j < s.cache.blockSize && !(offset <= j < offset + WORD_SIZE_BYTES) ==>
                 t.cache.blocks[b].bytes[j] == s.cache.blocks[b].bytes[j]
  {
    var c := s.cache;
    var b := address % c.numBlocks;
    var offset := BlockOffset(c.widths, address);
    var stored := c.blocks[b].(bytes := Splice(c.blocks[b].bytes, offset, word));
    State(c.(blocks := c.blocks[b := stored]), s.lru, Splice(s.memory, address, word))
  }

  /** Changing block contents but no tag keeps every lookup's answer. */
  lemma SameTagsSameHolds(c: Cache, d: Cache, address: Addr)
    requires 1 <= c.associativity <= c.numBlocks == |c.blocks|
    requires d == c.(blocks := d.blocks) && |d.blocks| == |c.blocks|
    requires forall i :: 0 <= i < |c.blocks| ==> d.blocks[i].tag == c.blocks[i].tag
    ensures Holds(d, address) <==> Holds(c, address)
  {
  }
}

=== FILE: lru.dfy ===
/** The per-set least-recently-used recency queues. */
module Lru {
  import opened Config
  import opened Results

  /** A fixed-capacity recency queue: index 0 is the least recently used slot,
      the last index the most recently used. Unused slots hold `EMPTY`. */
  type Queue = seq<int>

  /** The queue after one access and the tag that access reports as evicted. */
  datatype Touch = Touch(queue: Queue, evicted: int)

  /** Empty slots come before every real tag, and no real tag appears twice. */
  ghost predicate WellFormed(q: Queue)
  {
    && (forall i, j :: 0 <= i < j < |q| && q[i] != EMPTY ==> q[j] != EMPTY)
    && (forall i, j :: 0 <= i < j < |q| && q[i] != EMPTY ==> q[i] != q[j])
  }

  /** The real tags the queue holds. */
  ghost function Resident(q: Queue): set<int>
  {
    set i | 0 <= i < |q| && q[i] != EMPTY :: q[i]
  }

  /** Every slot is in use. */
  predicate Full(q: Queue)
  {
    |q| > 0 && q[0] != EMPTY
  }

  function NewQueue(maxSize: nat): (q: Queue)
    ensures |q| == maxSize
    ensures WellFormed(q) && Resident(q) == {}
  {
    seq(maxSize, _ => EMPTY)
  }

  /** Position of the first occurrence of `tag`, or `|q|` when it is absent. */
  function IndexOf(q: Queue, tag: int): (k: nat)
    ensures k <= |q|
    ensures k < |q| ==> q[k] == tag
    ensures forall j :: 0 <= j < k ==> q[j] != tag
  {
    if |q| == 0 then 0 else if q[0] == tag then 0 else 1 + IndexOf(q[1..], tag)
  }

  /** The slot an access vacates: the first one holding `tag`, or the front
      slot when `tag` is not in the queue. */
  function Slot(q: Queue, tag: int): (k: nat)
    requires |q| > 0
    ensures k < |q|
    ensures tag in q ==> q[k] == tag && tag !in q[..k]
    ensures tag !in q ==> k == 0
  {
    var i := IndexOf(q, tag);
    if i < |q| then i else 0
  }

  /** `q` without its entry at `k`, the later entries moved one slot forward. */
  function RemoveAt(q: Queue, k: nat): (r: Queue)
    requires k < |q|
    ensures |r| == |q| - 1
    ensures forall i :: 0 <= i < k ==> r[i] == q[i]
    ensures forall i :: k <= i < |r| ==> r[i] == q[i + 1]
  {
    q[..k] + q[k + 1..]
  }

  /** `addTagQueue`: vacate the tag's slot (or the front), close the gap, put
      the tag at the back. The report is `EMPTY` when the front slot was unused,
      the old front when it left the queue, and otherwise the tag itself. */
  function AddTag(q: Queue, tag: int): (t: Touch)
    requires |q| > 0
    ensures |t.queue| == |q|
    ensures t.queue == RemoveAt(q, Slot(q, tag)) + [tag]
  {
    var shifted := RemoveAt(q, Slot(q, tag)) + [tag];
    var oldest := q[0];
    Touch(shifted, if oldest == EMPTY then EMPTY else if oldest != shifted[0] then oldest else tag)
  }

  /** The report of an access, stated without the code's front comparison: no
      eviction while the queue has an unused slot, the accessed tag itself when
      it was already resident, and otherwise the least recently used tag. */
  lemma TouchReport(q: Queue, tag: int)
    requires |q| > 0 && WellFormed(q) && tag != EMPTY
    ensures AddTag(q, tag).evicted
              == if q[0] == EMPTY then EMPTY else if tag in q then tag else q[0]
  {
    var t := AddTag(q, tag);
    var k := Slot(q, tag);
    if q[0] != EMPTY && |q| > 1 {
      if k == 0 {
        assert t.queue[0] == q[1] != q[0];
      } else {
        assert t.queue[0] == q[0];
      }
    }
  }

  /** An access keeps the queue well formed. */
  lemma TouchKeepsWellFormed(q: Queue, tag: int)
    requires |q| > 0 && WellFormed(q) && tag != EMPTY
    ensures WellFormed(AddTag(q, tag).queue)
  {
    var k := Slot(q, tag);
    var r := AddTag(q, tag).queue;
    var n := |q|;
    forall i, j | 0 <= i < j < n && r[i] != EMPTY
      ensures r[j] != EMPTY && r[i] != r[j]
    {
      if j < n - 1 {
        var i' := if i < k then i else i + 1;
        var j' := if j < k then j else j + 1;
        assert r[i] == q[i'] && r[j] == q[j'] && i' < j';
      } else {
        var i' := if i < k then i else i + 1;
        assert r[i] == q[i'] && i' != k;
        if tag in q {
          assert q[k] == tag;
          assert q[i'] != q[k] by {
            if i' < k { } else { assert q[k] != EMPTY; }
          }
        } else {
          assert q[i'] != tag;
        }
      }
    }
  }

  /** The resident tags after an access: the accessed tag joins, and the least
      recently used tag leaves exactly when the queue was full and the accessed
      tag was not resident. */
  lemma TouchResidents(q: Queue, tag: int)
    requires |q| > 0 && WellFormed(q) && tag != EMPTY
    ensures Resident(AddTag(q, tag).queue)
              == if Full(q) && tag !in q then Resident(q) - {q[0]} + {tag}
                 else Resident(q) + {tag}
  {
    var k := Slot(q, tag);
    var r := AddTag(q, tag).queue;
    var n := |q|;
    var expected := if Full(q) && tag !in q then Resident(q) - {q[0]} + {tag} else Resident(q) + {tag};
    forall x | x in Resident(r)
      ensures x in expected
    {
      var i :| 0 <= i < n && r[i] != EMPTY && r[i] == x;
      if i < n - 1 {
        var i' := if i < k then i else i + 1;
        assert r[i] == q[i'] && i' != k;
        if Full(q) && tag !in q {
          assert k == 0 && i' > 0;
          assert q[i'] != q[0];
        }
      }
    }
    forall x | x in expected
      ensures x in Resident(r)
    {
      if x == tag {
        assert r[n - 1] == tag;
      } else {
        var i :| 0 <= i < n && q[i] != EMPTY && q[i] == x;
        assert i != k;
        var i2 := if i < k then i else i - 1;
        assert r[i2] == q[i];
      }
    }
  }

  /** Touching the same real tag twice in a row: the second touch reports no
      eviction while the queue still has an unused slot, and otherwise the tag
      itself, never another tag. */
  lemma SecondTouchReport(q: Queue, tag: int)
    requires |q| > 0 && WellFormed(q) && tag != EMPTY
    ensures var q1 := AddTag(q, tag).queue;
            AddTag(q1, tag).evicted == if q1[0] == EMPTY then EMPTY else tag
  {
    var q1 := AddTag(q, tag).queue;
    TouchKeepsWellFormed(q, tag);
    assert q1[|q1| - 1] == tag;
    TouchReport(q1, tag);
  }

  /** A full queue stays full. */
  lemma TouchKeepsFull(q: Queue, tag: int)
    requires Full(q) && WellFormed(q) && tag != EMPTY
    ensures Full(AddTag(q, tag).queue)
  {
    var r := AddTag(q, tag).queue;
    if |q| > 1 {
      assert r[0] == q[0] || r[0] == q[1];
    }
  }

  /** All recency queues, one per cache set. */
  datatype Lru = Lru(queues: seq<Queue>)

  /** The queues of `newLRU`: `numQueues` queues of `queueSize` unused slots. */
  function NewLru(numQueues: nat, queueSize: nat): (l: Lru)
    ensures |l.queues| == numQueues
    ensures forall i :: 0 <= i < numQueues ==>
              |l.queues[i]| == queueSize && WellFormed(l.queues[i]) && Resident(l.queues[i]) == {}
  {
    Lru(seq(numQueues, _ => NewQueue(queueSize)))
  }

  /** An access to one set's queue, with the report of the evicted tag. */
  datatype Touched = Touched(lru: Lru, evicted: int)

  /** `getEvictedTagLRU`. Its bounds check compares the set with the queue's
      capacity rather than with the number of queues, and it reads the queue
      before the check, so the caller must supply an existing set. */
  function GetEvictedTag(lru: Lru, setIndex: int, tag: int): (r: Result<Touched>)
    requires 0 <= setIndex < |lru.queues| && |lru.queues[setIndex]| > 0
    ensures r.Failure? <==> setIndex > |lru.queues[setIndex]|
    ensures r.Failure? ==> r.error == InvalidAddress
    ensures r.Success? ==>
              && |r.value.lru.queues| == |lru.queues|
              && r.value.lru.queues[setIndex] == AddTag(lru.queues[setIndex], tag).queue
              && r.value.evicted == AddTag(lru.queues[setIndex], tag).evicted
              && forall i :: 0 <= i < |lru.queues| && i != setIndex ==> r.value.lru.queues[i] == lru.queues[i]
  {
    if setIndex > |lru.queues[setIndex]| then Failure(InvalidAddress)
    else
      var t := AddTag(lru.queues[setIndex], tag);
      Success(Touched(Lru(lru.queues[setIndex := t.queue]), t.evicted))
  }
}

=== FILE: properties.dfy ===
/** Properties of whole accesses: what a read or write leaves behind and what
    the next access then sees. */
module CacheProperties {
  import opened Config
  import opened Results
  import opened Address
  import opened Codec
  import opened Lru
  import opened BlockStore
  import opened Controller

  /** Direct-mapped install: the selected block gets the tag, the valid and
      clean flags and exactly the four memory bytes at the address; nothing
      else changes, and the next lookup of the address hits. */
  lemma InstallDirectMapped(s: State, address: Addr)
    requires Valid(s) && s.cache.associativity == 1
    requires BlockOffset(s.cache.widths, address) + WORD_SIZE_BYTES <= s.cache.blockSize
    requires address + WORD_SIZE_BYTES <= |s.memory|
    ensures Install(s, address).Success?
    ensures var t := Install(s, address).value;
            var b := address % s.cache.numBlocks;
            var offset := BlockOffset(s.cache.widths, address);
            && t.lru == s.lru && t.memory == s.memory
            && t.cache.blocks[b].tag == Tag(s.cache.widths, address)
            && t.cache.blocks[b].valid == 1 && t.cache.blocks[b].clean == 1
            && t.cache.blocks[b].bytes[offset..offset + WORD_SIZE_BYTES] == MemoryWord(s.memory, address)
            && (forall i :: 0 <= i < s.cache.blockSize && !(offset <= i < offset + WORD_SIZE_BYTES) ==>
                  t.cache.blocks[b].bytes[i] == s.cache.blocks[b].bytes[i])
            && (forall i :: 0 <= i < |s.cache.blocks| && i != b ==> t.cache.blocks[i] == s.cache.blocks[i])
            && CheckCache(t, address) == Success(Checked(s.lru, WordHit))
  {
    var t := Install(s, address).value;
    var b := address % s.cache.numBlocks;
    var offset := BlockOffset(s.cache.widths, address);
    var word := MemoryWord(s.memory, address);
    assert t.cache.blocks[b] == Fill(s.cache.blocks[b], Tag(s.cache.widths, address), offset, word);
  }

  /** Repeating a read that succeeded hits, and changes no block. */
  lemma ReadAgainHits(s: State, address: Addr)
    requires Valid(s) && |s.memory| == MEMORY_SIZE
    requires ReadWord(s, address).Success?
    ensures var t := ReadWord(s, address).value.state;
            && ReadWord(t, address).Success?
            && ReadWord(t, address).value.probe == WordHit
            && ReadWord(t, address).value.state.cache == t.cache
  {
    assert ValidateAddressAsWritten(address).Pass?;
    var t := Resolve(s, address).value.state;
    assert Valid(t) && Holds(t.cache, address);
    if t.cache.associativity > 1 {
      var k := SetOf(s.cache, address);
      assert SetOf(t.cache, address) == k;
      assert |t.lru.queues[k]| == |s.lru.queues[k]|;
    }
    assert CheckCache(t, address).Success?;
    assert ReadWord(t, address) == Resolve(t, address);
  }

  /** Under write-through a successful write leaves the word in memory and in
      the block its remainder selects, and a read of the same address then hits
      without changing any block. */
  lemma WriteThenReadHits(s: State, address: Addr, word: seq<Byte>)
    requires Valid(s) && |s.memory| == MEMORY_SIZE && s.cache.writeStyle == WriteThrough
    requires ValidateAddressAsWritten(address).Pass?
    requires |word| == WORD_SIZE_BYTES
    requires WriteWord(s, address, word).Success?
    ensures var t := WriteWord(s, address, word).value;
            && MemoryWord(t.memory, address) == word
            && ReadWord(t, address).Success?
            && ReadWord(t, address).value.probe == WordHit
            && ReadWord(t, address).value.state.cache == t.cache
  {
    var t := WriteWord(s, address, word).value;
    if s.cache.associativity > 1 {
      var k := SetOf(s.cache, address);
      assert SetOf(t.cache, address) == k;
      assert |t.lru.queues[k]| == |s.lru.queues[k]|;
    }
  }

  /** On the set-associative path a miss refreshes the set's queue twice, once
      in the lookup and once in the install; a hit refreshes it once. */
  lemma AccessTouchCount(s: State, address: Addr)
    requires Valid(s) && s.cache.associativity > 1
    requires Resolve(s, address).Success?
    ensures var k := SetOf(s.cache, address);
            var tag := Tag(s.cache.widths, address);
            var once := AddTag(s.lru.queues[k], tag).queue;
            var a := Resolve(s, address).value;
            && (a.probe == WordHit ==> a.state.lru.queues == s.lru.queues[k := once])
            && (a.probe == WordMiss ==> a.state.lru.queues == s.lru.queues[k := AddTag(once, tag).queue])
  {
    var k := SetOf(s.cache, address);
    var tag := Tag(s.cache.widths, address);
    var once := AddTag(s.lru.queues[k], tag).queue;
    var checked := CheckCache(s, address).value;
    assert checked.lru.queues == s.lru.queues[k := once];
    var s1 := s.(lru := checked.lru);
    if checked.probe == WordMiss {
      assert SetOf(s1.cache, address) == k;
      assert s1.lru.queues[k] == once;
      var t := Install(s1, address).value;
      assert Resolve(s, address).value.state == t;
      assert t.lru.queues == s1.lru.queues[k := AddTag(once, tag).queue];
    }
  }

  /** On the set-associative path, once a set's queue is full every miss in
      that set fails: the lookup's refresh makes the tag resident in the queue,
      so the install's refresh reports the tag itself as evicted, and no block
      of the set carries it. */
  lemma FullQueueMissHasNoVictim(s: State, address: Addr)
    requires Valid(s) && s.cache.associativity > 1
    requires address + WORD_SIZE_BYTES <= |s.memory|
    requires BlockOffset(s.cache.widths, address) + WORD_SIZE_BYTES <= s.cache.blockSize
    requires var k := SetOf(s.cache, address);
             Full(s.lru.queues[k]) && k <= |s.lru.queues[k]|
    requires !Holds(s.cache, address)
    ensures Resolve(s, address) == Failure(NoVictim)
  {
    var c := s.cache;
    var k := SetOf(c, address);
    var tag := Tag(c.widths, address);
    var q := s.lru.queues[k];
    var q1 := AddTag(q, tag).queue;
    TouchKeepsWellFormed(q, tag);
    TouchKeepsFull(q, tag);
    assert q1[|q1| - 1] == tag;
    TouchReport(q1, tag);
    assert AddTag(q1, tag).evicted == tag;
    var checked := CheckCache(s, address).value;
    var s1 := s.(lru := checked.lru);
    assert s1.lru.queues[k] == q1;
    assert SetOf(s1.cache, address) == k;
    assert Victim(c, k, tag, BlockOffset(c.widths, address)).None?;
  }

  /** A cache whose blocks were never installed misses on every address. */
  lemma FreshCacheMisses(s: State, address: Addr)
    requires Valid(s)
    requires forall i :: 0 <= i < |s.cache.blocks| ==> s.cache.blocks[i] == NewBlock(s.cache.blockSize)
    requires CheckCache(s, address).Success?
    ensures CheckCache(s, address).value.probe == WordMiss
  {
  }

  /** The direct-mapped lookup compares tags only, in the block the address's
      remainder selects: after a read of `a`, a read of any `b` with the same
      remainder and the same tag hits, whatever memory `b` names. */
  lemma RemainderAndTagDecideHit(s: State, a: Addr, b: Addr)
    requires Valid(s) && |s.memory| == MEMORY_SIZE && s.cache.associativity == 1
    requires ReadWord(s, a).Success? && ValidateAddressAsWritten(b).Pass?
    requires a % s.cache.numBlocks == b % s.cache.numBlocks
    requires Tag(s.cache.widths, a) == Tag(s.cache.widths, b)
    ensures ReadWord(ReadWord(s, a).value.state, b) == Success(Access(ReadWord(s, a).value.state, WordHit))
  {
  }

  /** In the cache the program builds (two blocks per set, widths 22/2/8),
      addresses 0 and 256 go to the same set and carry the same tag although
      their index fields differ: the lookup of one finds the other's block. */
  lemma AliasedLinesOfProgramCache()
    ensures InitializeCache(CACHE_SIZE, CACHE_BLOCK_SIZE, ASSOCIATIVITY, WriteThrough).Success?
    ensures var c := InitializeCache(CACHE_SIZE, CACHE_BLOCK_SIZE, ASSOCIATIVITY, WriteThrough).value;
            && c.associativity == 2 && NumSets(c) == 8
            && SetOf(c, 0) == SetOf(c, 256)
            && Tag(c.widths, 0) == Tag(c.widths, 256)
            && Index(c.widths, 0) != Index(c.widths, 256)
  {
    SqrtWidthsOverrunBlock();
    AliasedFields(Widths(22, 2, 8), 0, 256);
  }

  /** Under the 22/2/8 split, 0 and 256 have equal tags and different indices. */
  lemma AliasedFields(w: Widths, a: Addr, b: Addr)
    requires w == Widths(22, 2, 8) && a == 0 && b == 256
    ensures Tag(w, a) == Tag(w, b)
    ensures Index(w, a) != Index(w, b)
  {
    Bits.Pow2Word();
    Bits.Pow2Add(8, 2);
    assert Bits.Pow2(2) == 4;
    assert b / Bits.Pow2(10) == 0;
    assert b / Bits.Pow2(8) == 1;
  }

  /** A set-associative miss touches the set's queue twice, so the install's
      report is never a least recently used tag: a successful miss always
      installs into the first block of the set whose word at the offset was
      zero, and no other block changes. */
  lemma MissInstallsIntoZeroWord(s: State, address: Addr)
    requires Valid(s) && s.cache.associativity > 1
    requires Resolve(s, address).Success? && Resolve(s, address).value.probe == WordMiss
    ensures var c := s.cache;
            var k := SetOf(c, address);
            var tag := Tag(c.widths, address);
            && AddTag(AddTag(s.lru.queues[k], tag).queue, tag).evicted == EMPTY
            && WordFitsBlock(c, address)
            && Victim(c, k, EMPTY, BlockOffset(c.widths, address)).Some?
            && var v := Victim(c, k, EMPTY, BlockOffset(c.widths, address)).value;
               Resolve(s, address).value.state.cache.blocks
                 == c.blocks[v := Fill(c.blocks[v], tag, BlockOffset(c.widths, address),
                                       MemoryWord(s.memory, address))]
  {
    var c := s.cache;
    var k := SetOf(c, address);
    var tag := Tag(c.widths, address);
    var q1 := AddTag(s.lru.queues[k], tag).queue;
    SecondTouchReport(s.lru.queues[k], tag);
    var checked := CheckCache(s, address).value;
    var s1 := s.(lru := checked.lru);
    assert SetOf(s1.cache, address) == k;
    assert s1.lru.queues[k] == q1;
    assert !SetHolds(c, k, tag);
    var t := Install(s1, address);
    assert Resolve(s, address).value.state == t.value;
  }

  /** The state a run starts from is valid: the cache `initialize_cache`
      builds, one fresh recency queue of `QUEUE_SIZE` slots for each of its
      sets, and a memory of `MEMORY_SIZE` bytes. */
  lemma InitialStateValid(mem: seq<Byte>)
    requires |mem| == MEMORY_SIZE
    ensures InitializeCache(CACHE_SIZE, CACHE_BLOCK_SIZE, ASSOCIATIVITY, WriteThrough).Success?
    ensures var c := InitializeCache(CACHE_SIZE, CACHE_BLOCK_SIZE, ASSOCIATIVITY, WriteThrough).value;
            Valid(State(c, NewLru(CACHE_SIZE / CACHE_BLOCK_SIZE / ASSOCIATIVITY, QUEUE_SIZE), mem))
  {
    SqrtWidthsOverrunBlock();
  }
}

=== FILE: results.dfy ===
/** Failure-carrying results for the simulator's fatal aborts and undefined outcomes. */
module Results {

  /** The reasons a run ends early. `CacheTooLarge` and `InvalidAddress` are the
      process exit codes of the simulator. The others stand for undefined
      behaviour the simulator would go on with: `NoVictim` for the install step
      that finds no block to overwrite and writes through an uninitialised
      pointer, `WordPastMemory` for a copy of a word that ends past the memory
      buffer, `BlockOverrun` for a copy of a word that ends past its block's
      byte array. */
  datatype Error = CacheTooLarge | InvalidAddress | NoVictim | WordPastMemory | BlockOverrun

  datatype Option<+T> = None | Some(value: T)

  datatype Result<+R> = Success(value: R) | Failure(error: Error) {
    predicate IsFailure() {
      Failure?
    }

    function PropagateFailure<U>(): Result<U>
      requires Failure?
    {
      Failure(error)
    }

    function Extract(): R
      requires Success?
    {
      value
    }
  }

  /** A check that either passes or aborts with an error. */
  datatype Outcome = Pass | Fail(error: Error) {
    predicate IsFailure() {
      Fail?
    }

    function PropagateFailure<U>(): Result<U>
      requires Fail?
    {
      Failure(error)
    }
  }
}
